=== FILE: README.md ===
# SGX-Step kernel driver, modelled in Dafny

SGX-Step's kernel module exposes a misc device that user space opens, holds
and drives with four ioctls. This project models:

- **The open/release token.** `target_cpu` records the CPU of the process
  holding the device; a second open is refused with `-EBUSY` until the
  holder releases it.
- **The ioctl dispatcher `step_ioctl`.** It maps a command number to one of
  four handlers. It checks that `_IOC_SIZE(cmd)` fits its 256-byte stack
  buffer. It copies exactly that many bytes in from the user's argument and
  runs the handler on the buffer. It copies the buffer back out only when
  the handler returned 0 and the command has the `IOC_OUT` bit. A handler's
  own error is swallowed: the dispatcher still returns 0.
- **The command numbers and structure layouts of `sgxstep_ioctl.h`.** They
  follow the asm-generic ioctl encoding (nr in bits 0-7, type in 8-15, size
  in 16-29, direction in 30-31). The structures are byte strings with
  little-endian fields, with encode/decode round trips.
- **The four handlers:**
  - `sgx_step_ioctl_info` takes the area `find_vma` returns for `tcs`, which
    is the first area ending above `tcs` and need not contain it. From that
    area's enclave it fills in `base` and `size`.
  - `sgx_step_get_pt_mapping` clears SMEP and SMAP in CR4. It then walks the
    four-level x86-64 page table for `virt` (section 4.5, "4-Level Paging",
    of the Intel SDM, Volume 3A). It records each level's raw entry and stops
    at the first entry the kernel's test for that level does not accept as
    present. The tests `pgd_present` to `pte_present`, the table each entry
    leads to, and the PTE's frame number (`pte_pfn`) are a parameter of the
    walk (`PageWalk.Paging`). All the walk lemmas hold for any choice of
    them. `PFN_PHYS` is modelled as the shift by 12 it is, so the physical
    address keeps the page offset of `virt` whatever `pte_pfn` returns.
    `PageWalk.Hardware` is the processor's own reading: the P bit (bit 0) at
    every level and bits 12-51 as the next address.
  - `sgx_step_ioctl_edbgrd` stages `len` bytes between user memory and an
    enclave through the enclave area's access routine (`edbgrdwr`). Its
    variable-length buffer lives on the kernel stack and is not initialised.
    The model therefore takes the buffer's initial contents as a parameter
    (`Handlers.Stack`). The ioctl methods return that parameter as a ghost
    result, so their contracts hold for whatever the stack held.
  - `sgx_step_ioctl_invpg` only flushes a TLB entry.

The modules:

- `Bytes` and `IoctlAbi`: the byte-level interface.
- `Uaccess`: the calling process's memory as `copy_from_user` and
  `copy_to_user` see it. It is a map of bytes plus a writable set, and a copy
  faults when any byte of its range is out of reach.
- `Regions`: the process's areas as `find_vma` sees them, and the access
  routine an enclave driver installs.
- `PageWalk`: the walk as a function of a snapshot of physical memory.
- `Handlers`: each handler and the dispatcher as functions of the state a
  command may change (user memory, enclave memory, CR4).
- `HandlerProperties`: what the driver promises about those functions.
- `SgxStep`: the driver itself. `Kernel` is a class whose fields are
  `target_cpu`, user memory, enclave memory and CR4. Its methods follow the C
  code step by step: the 256-byte staging array, the handlers updating it in
  place, the uninitialised variable-length EDBGRD buffer, and the walk's early
  returns. Each method is proved to agree with the functions of `Handlers`
  and `PageWalk`.

`RET_ASSERT` is defined in `sgxstep_internal.h`, which is not part of this
model. It is taken to return a nonzero error from the enclosing function,
written `ASSERT_FAILED` (-EINVAL here). The proofs need only that it is
negative. That makes it nonzero. It also makes it differ from every byte
count an access routine can return, which is how `Regions.Edbgrdwr` tells a
missing access routine from a transfer.

### Behaviour a reader might not expect

- The walk has no large-page test. `dump_pt` (kernel/sgxstep.c:139-152),
  which only logs, stops at a large PUD or PMD. The walk returned by
  `sgx_step_get_pt_mapping` instead follows a present entry with the
  page-size bit as if it led to a table (`PageWalk.WalkFollowsLargePud`).
- `step_ioctl` returns 0 whatever the handler returned; a failing handler
  only skips the copy-back (`HandlerProperties.IoctlCopyBack`,
  `HandlerProperties.InfoNullTcsSwallowed`). So on an argument the caller
  may read but not write, a failing VICTIM_INFO returns 0, while a
  succeeding INVPG returns -EFAULT (`HandlerProperties.InvpgReadOnlyFaults`).
  This holds even when EDBGRD's own
  copy to or from `val` faults (`HandlerProperties.EdbgrdReply`).
- When the walk stops, the record holds the raw value of the entry that
  stopped it. The code stores each entry before testing it, so only the
  levels below the stop are 0 (`PageWalk.WalkRecord`).
- With the P4D folded into the PGD, `pgd_present` accepts every entry, so
  the early return after the PGD never fires (`PageWalk.FoldedWalkRecordsPud`).
- An EDBGRD read copies `len` bytes of its uninitialised stack buffer to
  user memory. This happens even when no access routine exists, and at every
  offset the routine did not reach (`HandlerProperties.EdbgrdReadLeaksStack`).
  The kernel stack's contents can reach the caller this way.

## Model

| member | source | states |
|---|---|---|
| SgxStep.Kernel.constructor | kernel/sgxstep.c:46 | The device starts out free (`target_cpu == -1`). |
| SgxStep.Kernel.StepOpen | kernel/sgxstep.c:48-58 | A held device gives -EBUSY and keeps its holder. A free one records the caller's CPU and gives 0. |
| SgxStep.Kernel.StepRelease | kernel/sgxstep.c:60-65 | Release always gives 0 and frees the device. |
| SgxStep.OpenBusyReleaseOpen | kernel/sgxstep.c:48-65 | Open, a refused second open (-EBUSY), release, then the second opener succeeds and holds the device. |
| SgxStep.Stage | kernel/sgxstep.c:274-275 | Copying bytes into the front of the staging array leaves exactly those bytes there and the rest untouched. |
| SgxStep.Kernel.StepIoctl | kernel/sgxstep.c:249-285 | The status and new state are exactly `IoctlSpec` for the stack contents it returns: -EINVAL for an unknown command, otherwise the dispatch of the known one. |
| SgxStep.Kernel.DispatchCommand | kernel/sgxstep.c:273-284 | For a known command, the status and new state are exactly `Dispatch`: size guard, copy-in of `_IOC_SIZE` bytes, handler, conditional copy-back. |
| SgxStep.Kernel.RunHandler | kernel/sgxstep.c:255-277 | The handler the command selects leaves in the staged bytes and in the state exactly what `Handle` says. |
| SgxStep.Kernel.CopyOut | kernel/sgxstep.c:279-284 | Copy-back happens only after a handler result of 0 on an IOC_OUT command. A faulting copy gives -EFAULT; everything else gives 0. |
| SgxStep.Kernel.IoctlInfoStaged | kernel/sgxstep.c:67-83 | Returns `IoctlInfo`'s status, leaves `IoctlInfo`'s record in the first 32 staged bytes, and keeps the rest of the buffer. |
| SgxStep.Kernel.Walk | kernel/sgxstep.c:201-242 | The step-by-step walk with early returns, using the kernel's per-level tests, produces exactly `WalkSpec`'s record. |
| SgxStep.Kernel.GetPtMappingStaged | kernel/sgxstep.c:174-245 | Returns 0. Clears SMEP and SMAP in CR4. The staged structure decodes to the walk of its own `virt`. The buffer's tail, user memory and enclave memory are unchanged. |
| SgxStep.Kernel.EdbgrdStageIn | kernel/sgxstep.c:99-101 | The fresh `len`-byte buffer holds the user's bytes when writing. When reading it holds its uninitialised contents, returned as `stack`. Staging fails exactly when a write's source is unreadable. |
| SgxStep.Kernel.IoctlEdbgrdStaged | kernel/sgxstep.c:96-108 | Status, user memory and enclave memory are exactly `EdbgrdEffect` of the staged request, for the buffer's initial contents `stack`. |
| SgxStep.Kernel.IoctlInvpgStaged | kernel/sgxstep.c:112-119 | INVPG always returns 0. |
| Handlers.IoctlInfo | kernel/sgxstep.c:74-79 | 0 exactly when the area found for `tcs` carries an enclave and `aep` and `tcs` are nonzero. Failure returns the RET_ASSERT error with the record unchanged. Success copies the enclave's `base` and `size` and keeps `aep` and `tcs`. |
| Handlers.IoctlInvpg | kernel/sgxstep.c:112-119 | INVPG returns 0 and leaves its request as it was. |
| Handlers.InfoHandler | kernel/sgxstep.c:72-82 | VICTIM_INFO on the staged bytes viewed as its structure: they decode to the handler's record, a failure leaves them exactly as received, and the `aep` and `tcs` bytes are always the caller's. The state is untouched. |
| Handlers.PtMappingHandler | kernel/sgxstep.c:176-244 | GET_PT_MAPPING on the staged bytes returns 0 and clears SMEP and SMAP. The bytes then decode to the walk's record for the caller's `virt`, with `virt` kept and `fun` zeroed. |
| Handlers.EdbgrdHandler | kernel/sgxstep.c:98-107 | EDBGRD returns 0 or -EFAULT, leaves the staged request and CR4 as they were. |
| Handlers.InvpgHandler | kernel/sgxstep.c:114-118 | INVPG returns 0 with the staged bytes and the state unchanged. |
| Handlers.EdbgrdBuffer | kernel/sgxstep.c:99-101 | The buffer has `len` bytes. When writing it is the user's bytes at `val`, and missing exactly when they cannot be read. When reading it is the first `len` bytes of the stack. |
| Handlers.Handle | kernel/sgxstep.c:255-268 | A handler keeps the staged length. Only GET_PT_MAPPING changes CR4, and only EDBGRD changes user or enclave memory. |
| Handlers.StackBytes | kernel/sgxstep.c:99 | The first `n` bytes the stack holds where the buffer is placed, in order. |
| Handlers.EdbgrdEffect | kernel/sgxstep.c:96-108 | EDBGRD's outcome: status 0 or -EFAULT. A write never changes user memory, and a read never changes enclave memory. Its copy behaviour is stated by `HandlerProperties.EdbgrdDirections` and `HandlerProperties.EdbgrdReadLeaksStack`. |
| Handlers.IoctlSpec | kernel/sgxstep.c:249-285 | Defines `step_ioctl`: -EINVAL for an unknown number, otherwise `Dispatch`. Its properties are stated by `HandlerProperties.IoctlStatus`, `IoctlKnown` and the per-command reply lemmas. |
| Handlers.Dispatch | kernel/sgxstep.c:273-284 | Defines the known-command path: size guard, copy-in, handler, `CopyBack`. Its properties are stated by `HandlerProperties.DispatchStatus` and `HandlerProperties.IoctlCopyBack`. |
| Handlers.CopyBack | kernel/sgxstep.c:279-284 | The status is 0 or -EFAULT. It is -EFAULT exactly when a handler result of 0 on an IOC_OUT command meets an unwritable argument. Enclave memory and CR4 are kept, and user memory changes only on that copy-back path. |
| HandlerProperties.IoctlStatus | kernel/sgxstep.c:255-277 | The status is 0, -EINVAL or -EFAULT. It is -EINVAL exactly for an unknown command, which changes nothing. A known command whose argument cannot be read gets -EFAULT with no change. |
| HandlerProperties.DispatchStatus | kernel/sgxstep.c:273-284 | A known command gets 0 or -EFAULT, never the size guard's error. An unreadable argument gets -EFAULT before the handler runs. |
| HandlerProperties.IoctlKnown | kernel/sgxstep.c:255-268 | The number of each command selects that command's handler. |
| HandlerProperties.IoctlCopyBack | kernel/sgxstep.c:277-284 | A failing handler is answered with 0 and no copy-back. A successful one has its staged bytes written back to `arg`, or gets -EFAULT if they cannot be. |
| HandlerProperties.InfoNullTcsSwallowed | kernel/sgxstep.c:76 | VICTIM_INFO with `tcs == 0` fails in its handler, yet the ioctl returns 0 and changes nothing, even when the argument is only readable. |
| HandlerProperties.InfoReply | kernel/sgxstep.c:67-83 | A successful VICTIM_INFO returns 0 and stores the handler's record over the argument, changing nothing else. |
| HandlerProperties.InfoWritesBaseAndSize | kernel/sgxstep.c:78-79 | Afterwards the argument decodes to the enclave's `base` and `size` with the caller's `aep` and `tcs`. |
| HandlerProperties.InfoKeepsAepAndTcsBytes | kernel/sgxstep.c:78-79 | The 16 bytes of `aep` and `tcs` in the argument are exactly as the caller left them. |
| HandlerProperties.PtMappingReply | kernel/sgxstep.c:174-245 | GET_PT_MAPPING returns 0, clears SMEP and SMAP, and leaves the walk's record for the caller's `virt` in the argument. |
| HandlerProperties.EdbgrdDirections | kernel/sgxstep.c:100-107 | The status is -EFAULT exactly when the user copy faults, whatever `edbgrdwr` returned. A write whose copy-in faults leaves the enclave untouched. |
| HandlerProperties.EdbgrdWriteThenRead | kernel/sgxstep.c:96-108 | Writing `len` bytes into a fully reachable enclave range, then reading them back to another buffer, delivers the same bytes. Neither request fails, and the write leaves user memory alone. |
| HandlerProperties.EdbgrdReadWithoutRegion | kernel/sgxstep.c:99-106 | A read with no access routine at `adrs` still returns 0. It copies `len` bytes of uninitialised kernel stack to `val`. |
| HandlerProperties.EdbgrdReadLeaksStack | kernel/sgxstep.c:99-106 | A read to a writable `val` returns 0. At every offset the access routine did not fill (every offset when there is none), the caller's `val` receives the stack's byte. |
| HandlerProperties.EdbgrdReply | kernel/sgxstep.c:96-108 | Through `step_ioctl`, EDBGRD with a writable argument returns 0 even when the handler's own copy faults. On handler success the unchanged request bytes are written back over `arg` after the handler's write to `val`. |
| HandlerProperties.EdbgrdIoctlWriteThenRead | kernel/sgxstep.c:249-285 | One EDBGRD ioctl writing into a fully reachable enclave range changes only enclave memory. A second ioctl reading the range back to a `val` disjoint from its own request delivers the written bytes. |
| HandlerProperties.InvpgReadOnlyFaults | kernel/sgxstep.c:277-284 | INVPG on an argument that is readable but not writable returns -EFAULT and changes nothing: the copy-back refuses a successful handler's reply. |
| HandlerProperties.InvpgChangesNothing | kernel/sgxstep.c:277-284 | INVPG returns 0, and copying back its unchanged structure leaves memory as it was. |
| Regions.FindVma | kernel/sgxstep.c:91 | The area found ends above the address. |
| Regions.FindVmaIsFirst | kernel/sgxstep.c:91 | It is the first such area. When none is found, every area ends at or below the address. |
| Regions.EnclaveAt | kernel/sgxstep.c:74-75 | An enclave is found only as the private data of an area ending above the address. |
| Regions.Edbgrdwr | kernel/sgxstep.c:85-94 | The RET_ASSERT error exactly when no area with an access routine is found, and then nothing moves. A write leaves the buffer as it was; a read leaves enclave memory as it was. |
| Regions.HasAccess | kernel/sgxstep.c:91-92 | The RET_ASSERT condition holds exactly when the first area ending above the address has an access routine. |
| Regions.Reach | kernel/sgxstep.c:93 | The access routine transfers a prefix of the range, up to the first unreachable byte. |
| Regions.AccessRead | kernel/sgxstep.c:93 | A read fills the reached prefix of the buffer from enclave memory and keeps the rest. |
| Regions.AccessWrite | kernel/sgxstep.c:93 | A write stores the reached prefix and changes no other byte and no mapping. |
| Regions.ReachSameKeys | kernel/sgxstep.c:93 | How far a transfer reaches depends only on which addresses are mapped. |
| Regions.AccessRoundTrip | kernel/sgxstep.c:93 | Reading back a fully reached range returns what was written. |
| Regions.AccessWriteAt | kernel/sgxstep.c:93 | Each byte inside a fully reached write holds the written byte. |
| Uaccess.CopyFromUser | kernel/sgxstep.c:274-275 | The copy succeeds exactly when every byte is mapped, and then yields those bytes. |
| Uaccess.CopyToUser | kernel/sgxstep.c:280-281 | The copy succeeds exactly when every byte is writable, and then stores the bytes. |
| Uaccess.Read | kernel/sgxstep.c:274 | The bytes of the range, in order. |
| Uaccess.Write | kernel/sgxstep.c:280 | Bytes inside the range take the new values; all others and all permissions are kept. |
| Uaccess.ReadAfterWrite | kernel/sgxstep.c:280 | What was copied out is read back. |
| Uaccess.ReadSlice | kernel/sgxstep.c:274 | Reading the tail of a range gives the tail of the read. |
| Uaccess.WriteBackUnchanged | kernel/sgxstep.c:279-281 | Copying back the bytes just copied in leaves memory as it was. |
| Uaccess.WriteFrame | kernel/sgxstep.c:280 | A copy-out keeps every range's accessibility and the contents of every disjoint range. |
| PageWalk.WalkRecord | kernel/sgxstep.c:201-242 | `virt`, the root and the PGD entry are always recorded, and `fun` is 0. Each lower level is filled exactly when every level above passes its level's test. `phys` is set exactly when all four pass. |
| PageWalk.DepthStopRule | kernel/sgxstep.c:209-240 | The walk goes past an entry only if it passes its test, and a short walk ends at an entry that fails it. |
| PageWalk.ChainDepth | kernel/sgxstep.c:209-240 | The number of levels read is one past the last present entry among the first three. |
| PageWalk.Depth | kernel/sgxstep.c:209-240 | The walk reads at least the first entry and never more than the chain holds. |
| PageWalk.EntryOffsets | kernel/sgxstep.c:206-236 | The byte offset each level reads at, eight times its index, is that level's nine address bits moved down to bits 3-11, so it lies inside the table's 4 KiB. |
| PageWalk.SamePageIndices | kernel/sgxstep.c:206-236 | Addresses in the same 4 KiB page have the same four table indices. |
| PageWalk.SameIndicesSameEntries | kernel/sgxstep.c:206-237 | Addresses with the same indices meet the same PGD, PUD, PMD and PTE entries. |
| PageWalk.SameIndicesSameWalk | kernel/sgxstep.c:201-241 | Addresses with the same indices get the same record apart from `virt` and `phys`. |
| PageWalk.SamePageSameWalk | kernel/sgxstep.c:201-241 | Addresses in the same 4 KiB page get the same record apart from `virt` and `phys`. |
| PageWalk.WalkKeepsPageOffset | kernel/sgxstep.c:239-242 | Behind four present entries, `phys` has the page offset of `virt` and, above it, the PTE's frame `PFN_PHYS(pte_pfn(pte))`, for every reading of `pte_pfn`. |
| PageWalk.FrameOrOffset | kernel/sgxstep.c:242 | A page-aligned frame or-ed with a page offset splits back into the two. |
| PageWalk.WalkTopNotPresent | kernel/sgxstep.c:205-210 | With the PGD entry rejected by `pgd_present`, the record holds only `virt`, the root and that entry. |
| PageWalk.WalkFollowsLargePud | kernel/sgxstep.c:225-231 | A present PUD with the page-size bit is still followed, and the word at the PMD index of the table it leads to is recorded as the PMD. |
| PageWalk.FoldedWalkRecordsPud | kernel/sgxstep.c:209-220 | When `pgd_present` accepts every entry, as with the P4D folded into the PGD, the PUD entry is always recorded. |
| PageWalk.HardwareKeepsPageOffset | kernel/sgxstep.c:239-242 | Under the processor's reading (the P bit at every level), a fully present walk yields the PTE's bits 12-51 with the page offset of `virt`. |
| PageWalk.WalkSpec | kernel/sgxstep.c:201-242 | Defines the walk's record. Its meaning is stated by `WalkRecord`, `DepthStopRule` and `WalkKeepsPageOffset`. |
| PageWalk.Frame | kernel/sgxstep.c:242 | Bits 12-51 of an entry, which form a page-aligned address. |
| PageWalk.PfnPhys | kernel/sgxstep.c:242 | `PFN_PHYS`, the frame number shifted left by 12: page-aligned for every frame number, and the frame number's low 52 bits are recovered by shifting back. |
| PageWalk.Pfn | kernel/sgxstep.c:242 | The hardware frame number of an entry, whose `PFN_PHYS` is bits 12-51 of the entry. |
| PageWalk.Present | kernel/sgxstep.c:209-240 | The processor's present bit (bit 0), the test `PageWalk.Hardware` uses at every level. |
| PageWalk.EntryAt | kernel/sgxstep.c:206-237 | The entry at an index is the 64-bit word at the table's address plus 8 times the index. |
| PageWalk.PgdIndex | kernel/sgxstep.c:206 | The PGD index, bits 39-47 of `virt`, is below 512. |
| PageWalk.PudIndex | kernel/sgxstep.c:220-222 | The PUD index, bits 30-38 of `virt`, is below 512. |
| PageWalk.PmdIndex | kernel/sgxstep.c:230 | The PMD index, bits 21-29 of `virt`, is below 512. |
| PageWalk.PteIndex | kernel/sgxstep.c:236 | The PTE index, bits 12-20 of `virt`, is below 512. |
| PageWalk.ClearSmepSmap | kernel/sgxstep.c:188-196 | The new CR4 has bits 20 and 21 clear and every other bit as before. |
| IoctlAbi.IocSize | kernel/sgxstep.c:273 | `_IOC_SIZE` is a 14-bit field. |
| IoctlAbi.Ioc | kernel/sgxstep_ioctl.h:27-30 | `_IOC` keeps `nr` in the low 8 bits. Fields that fit their ranges do not overlap, so the number is `dir`·2^30 + `size`·2^16 + `type`·2^8 + `nr`. |
| IoctlAbi.IocRoundTrip | kernel/sgxstep_ioctl.h:27-30 | Decoding an encoded command number gives back its direction, type, nr and size. |
| IoctlAbi.CmdNumber | kernel/sgxstep_ioctl.h:27-30 | Each command's size field is its structure's size (below 256), and IOC_OUT is set. |
| IoctlAbi.CommandOf | kernel/sgxstep.c:255-271 | The switch selects a command only for that command's number, and selects it whenever the number matches. |
| IoctlAbi.CommandNumberLayout | kernel/sgxstep_ioctl.h:26-30 | All four commands have magic 'L', nr 0 to 3, both direction bits, and sizes 32, 64, 32 and 8. |
| IoctlAbi.SignedLen | kernel/sgxstep_ioctl.h:56 | `len` reads as a value in the int64 range, and a non-negative reading is the bits' own value. |
| IoctlAbi.SignedLenTwosComplement | kernel/sgxstep_ioctl.h:56 | The reading is congruent to the raw bits modulo 2^64. With the int64 range, that fixes it as the two's-complement value. |
| IoctlAbi.SignedLenNonNegative | kernel/sgxstep_ioctl.h:56 | A `len` with the sign bit clear reads as its own value. |
| IoctlAbi.PackAt | kernel/sgxstep_ioctl.h:32-38 | Field `i` of a struct of uint64_t occupies bytes 8i to 8i+8. |
| IoctlAbi.UnpackAt | kernel/sgxstep_ioctl.h:32-38 | Decoding reads field `i` from bytes 8i to 8i+8. |
| IoctlAbi.PackUnpack | kernel/sgxstep_ioctl.h:32-38 | Re-encoding the decoded fields rebuilds the buffer. |
| IoctlAbi.PackedField | kernel/sgxstep_ioctl.h:32-38 | Each encoded field decodes to its value. |
| IoctlAbi.EncodeInfo | kernel/sgxstep_ioctl.h:32-38 | The record as 32 bytes: `base`, `size`, `aep` and `tcs` little-endian at offsets 0, 8, 16 and 24. It is inverted by `DecodeInfo` (`InfoRoundTrip`, `InfoBytesRoundTrip`). |
| IoctlAbi.DecodeInfo | kernel/sgxstep_ioctl.h:32-38 | Reads the four fields back from offsets 0, 8, 16 and 24. |
| IoctlAbi.EncodeMapping | kernel/sgxstep_ioctl.h:42-51 | The record as 64 bytes: eight 8-byte fields, `virt` to `fun`, in declaration order. It is inverted by `DecodeMapping` (`MappingRoundTrip`, `MappingBytesRoundTrip`). |
| IoctlAbi.DecodeMapping | kernel/sgxstep_ioctl.h:42-51 | Reads the eight fields back from offsets 0 to 56. |
| IoctlAbi.EncodeEdbgrd | kernel/sgxstep_ioctl.h:53-58 | The request as 32 bytes: `adrs`, `val` and `len` at 0, 8 and 16, `write` at 24 and 4 bytes of tail padding. It is inverted by `DecodeEdbgrd` (`EdbgrdRoundTrip`, `EdbgrdBytesRoundTrip`). |
| IoctlAbi.DecodeEdbgrd | kernel/sgxstep_ioctl.h:53-58 | Reads the fields and the padding back. |
| IoctlAbi.EncodeInvpg | kernel/sgxstep_ioctl.h:60-62 | The request as 8 bytes, with `adrs` little-endian. It is inverted by `DecodeInvpg` (`InvpgRoundTrip`, `InvpgBytesRoundTrip`). |
| IoctlAbi.DecodeInvpg | kernel/sgxstep_ioctl.h:60-62 | Reads `adrs` back. |
| IoctlAbi.InfoRoundTrip | kernel/sgxstep_ioctl.h:32-38 | decode(encode(info)) == info for the 32-byte enclave-info layout. |
| IoctlAbi.InfoBytesRoundTrip | kernel/sgxstep_ioctl.h:32-38 | encode(decode(b)) == b for any 32 bytes. |
| IoctlAbi.InfoTailUnchanged | kernel/sgxstep_ioctl.h:32-38 | Changing `base` and `size` leaves bytes 16 to 32 of the encoding alone. |
| IoctlAbi.InfoBytesTailKept | kernel/sgxstep_ioctl.h:32-38 | Re-encoding received bytes with new `base` and `size` keeps their last 16 bytes. |
| IoctlAbi.MappingRoundTrip | kernel/sgxstep_ioctl.h:42-51 | decode(encode(m)) == m for the 64-byte address-mapping layout. |
| IoctlAbi.MappingBytesRoundTrip | kernel/sgxstep_ioctl.h:42-51 | encode(decode(b)) == b for any 64 bytes. |
| IoctlAbi.EdbgrdRoundTrip | kernel/sgxstep_ioctl.h:53-58 | decode(encode(r)) == r for the 32-byte edbgrd layout, padding included. |
| IoctlAbi.EdbgrdBytesRoundTrip | kernel/sgxstep_ioctl.h:53-58 | encode(decode(b)) == b for any 32 bytes. |
| IoctlAbi.InvpgRoundTrip | kernel/sgxstep_ioctl.h:60-62 | decode(encode(r)) == r for the 8-byte invpg layout. |
| IoctlAbi.InvpgBytesRoundTrip | kernel/sgxstep_ioctl.h:60-62 | encode(decode(b)) == b for any 8 bytes. |
| Bytes.Le64RoundTrip | kernel/sgxstep_ioctl.h:34-37 | A little-endian uint64_t decodes to its value. |
| Bytes.FromLe64RoundTrip | kernel/sgxstep_ioctl.h:34-37 | Any 8 bytes re-encode to themselves. |
| Bytes.FromLe64LowBytes | kernel/sgxstep_ioctl.h:34-37 | Bytes 0 to 3 of the round trip are kept. |
| Bytes.FromLe64HighBytes | kernel/sgxstep_ioctl.h:34-37 | Bytes 4 to 7 of the round trip are kept. |
| Bytes.Le32RoundTrip | kernel/sgxstep_ioctl.h:57 | A little-endian int decodes to its bits. |
| Bytes.FromLe32RoundTrip | kernel/sgxstep_ioctl.h:57 | Any 4 bytes re-encode to themselves. |

## Left out

- Module registration is not modelled: `step_fops`, `step_dev`, `init_module` and `cleanup_module`. The `devmem_is_allowed` kretprobe is left out too; it rewrites registers of a foreign function.
- `do_fun` and `fun_kernel` are not modelled. `sgx_step_get_pt_mapping` calls them to run a caller-supplied function pointer, which is code outside the model. The walk's record clears `fun` all the same.
- Logging is not modelled: `printk`, `pr_cont`, and `dump_pt` as a whole, since it only logs.
- SgxStep.Kernel.IoctlInvpgStaged: the `invlpg` TLB flush is a hardware effect with no counterpart in the state, so the handler is modelled as returning 0 and changing nothing.
- SgxStep.Kernel.GetPtMappingStaged: the privileged CR4 write is modelled as an update of the `cr4` field. Its hardware effect (SMEP and SMAP off on that CPU) is not modelled.
- The kernel's page-table helpers are parameters of the walk (`PageWalk.Paging`), not derived from the architecture headers, which are not part of this model. These are the per-level `*_present` tests, the table bases behind `pud_offset`, `pmd_offset` and `pte_offset_map`, and `pte_pfn`. The lemmas therefore hold for any reading of them. Linux's own reading differs from the hardware instance `PageWalk.Hardware` (P bit at every level, bits 12-51 as the next address) in three ways:
  - `pgd_present` is constant true when the P4D is folded;
  - `pmd_present` also accepts PSE and PROT_NONE entries, and `pte_present` accepts PROT_NONE;
  - a large PUD's frame is masked to bits 30-51.
  None of these is modelled as a separate instance.
- Table indices are taken from bits 47-39, 38-30, 29-21 and 20-12 of `virt`. Physical memory is a snapshot function from address to 64-bit word, and `__pa` of the PGD is the `root` parameter. Five-level paging is not modelled.
- `find_vma`, the area's private enclave data and its access routine are oracles over a list of areas and a map of enclave bytes. The isolation driver's own checks behind the access routine are not part of this model.
- Uaccess.CopyFromUser, Uaccess.CopyToUser: a copy either moves every byte or faults and moves none. The partial copies the kernel may perform before a fault are not modelled.
- SgxStep.Kernel.StepIoctl, SgxStep.Kernel.IoctlEdbgrdStaged: an EDBGRD request must have a non-negative `len`. The variable-length stack array `buf[data->len]` has no meaning otherwise. No upper bound is imposed, because the code has none.
- The EDBGRD buffer's uninitialised contents are a parameter (`Handlers.Stack`) that `SgxStep.Kernel.StepIoctl` returns as a ghost result. Which bytes the stack actually holds is not modelled.
- Regions.Edbgrdwr: the conversion of `len` to `int` in `edbgrdwr` is not modelled. A `len` of 2^31 or more is passed on unchanged rather than truncated.
- Addresses are modelled as unbounded naturals. A range that wraps past 2^64 is not modelled.
- The `RET_ASSERT(map)` check of `sgx_step_get_pt_mapping` is not modelled, since the staging buffer's address is never null.
- SgxStep.Kernel.IoctlInfoStaged: the handler stores `base` and `size` only. The model re-encodes the whole record with `aep` and `tcs` unchanged; `HandlerProperties.InfoKeepsAepAndTcsBytes` shows that those bytes come out identical.
- `target_cpu` is updated without a lock, and concurrent opens and ioctls are not modelled. The model covers sequential calls only.
- Builds with `NO_SGX`, where the info handler does nothing, are not modelled.

=== FILE: bytes.dfy ===
/**
 * Little-endian byte encoding of the fixed-width integers that make up the
 * ioctl structures (x86-64 stores a uint64_t or an int least significant
 * byte first).
 */
module Bytes {
  type byte = bv8

  /** The eight bytes of `v`, least significant first. */
  function Le64(v: bv64): (b: seq<byte>)
    ensures |b| == 8
  {
    [ (v & 0xFF) as byte, ((v >> 8) & 0xFF) as byte,
      ((v >> 16) & 0xFF) as byte, ((v >> 24) & 0xFF) as byte,
      ((v >> 32) & 0xFF) as byte, ((v >> 40) & 0xFF) as byte,
      ((v >> 48) & 0xFF) as byte, ((v >> 56) & 0xFF) as byte ]
  }

  /** The 64-bit value stored little-endian in `b`. */
  function FromLe64(b: seq<byte>): bv64
    requires |b| == 8
  {
    (b[0] as bv64) | ((b[1] as bv64) << 8) | ((b[2] as bv64) << 16) | ((b[3] as bv64) << 24)
    | ((b[4] as bv64) << 32) | ((b[5] as bv64) << 40) | ((b[6] as bv64) << 48) | ((b[7] as bv64) << 56)
  }

  /** The four bytes of `v`, least significant first. */
  function Le32(v: bv32): (b: seq<byte>)
    ensures |b| == 4
  {
    [ (v & 0xFF) as byte, ((v >> 8) & 0xFF) as byte,
      ((v >> 16) & 0xFF) as byte, ((v >> 24) & 0xFF) as byte ]
  }

  /** The 32-bit value stored little-endian in `b`. */
  function FromLe32(b: seq<byte>): bv32
    requires |b| == 4
  {
    (b[0] as bv32) | ((b[1] as bv32) << 8) | ((b[2] as bv32) << 16) | ((b[3] as bv32) << 24)
  }

  lemma Le64RoundTrip(v: bv64)
    ensures FromLe64(Le64(v)) == v
  {
  }

  lemma FromLe64RoundTrip(b: seq<byte>)
    requires |b| == 8
    ensures Le64(FromLe64(b)) == b
  {
    FromLe64LowBytes(b);
    FromLe64HighBytes(b);
  }

  lemma FromLe64LowBytes(b: seq<byte>)
    requires |b| == 8
    ensures var c := Le64(FromLe64(b)); c[0] == b[0] && c[1] == b[1] && c[2] == b[2] && c[3] == b[3]
  {
  }

  lemma FromLe64HighBytes(b: seq<byte>)
    requires |b| == 8
    ensures var c := Le64(FromLe64(b)); c[4] == b[4] && c[5] == b[5] && c[6] == b[6] && c[7] == b[7]
  {
  }

  lemma Le32RoundTrip(v: bv32)
    ensures FromLe32(Le32(v)) == v
  {
  }

  lemma FromLe32RoundTrip(b: seq<byte>)
    requires |b| == 4
    ensures Le32(FromLe32(b)) == b
  {
    var v := FromLe32(b);
    assert Le32(v)[0] == b[0] && Le32(v)[1] == b[1] && Le32(v)[2] == b[2] && Le32(v)[3] == b[3];
  }
}

=== FILE: errno.dfy ===
/** The status codes the device returns (Linux errno-base values, negated by the callers). */
module Errno {
  const EFAULT: int := 14
  const EBUSY: int := 16
  const EINVAL: int := 22
  /**
   * What a failed RET_ASSERT makes the enclosing function return. Its
   * definition in sgxstep_internal.h is not part of this model. The proofs
   * need only that it is negative, so that it is nonzero and differs from
   * every byte count an access routine returns; the model takes -EINVAL.
   */
  const ASSERT_FAILED: int := -EINVAL
}

=== FILE: handler_properties.dfy ===
/**
 * What the driver promises about its handlers and its dispatcher, stated
 * over the functions of Handlers.
 */
module HandlerProperties {
  import opened Wrappers
  import opened Bytes
  import opened Errno
  import opened IoctlAbi
  import opened Uaccess
  import opened Regions
  import opened PageWalk
  import opened Handlers

  // ---------------------------------------------------------------------
  // SGX_STEP_IOCTL_EDBGRD
  /**
   * EDBGRD fails, with -EFAULT, exactly when its copy from or to user memory
   * faults, whatever edbgrdwr returned; and a write whose copy-in faults
   * leaves the enclave untouched.
   */
  lemma EdbgrdDirections(vmas: seq<Vma>, user: UserMem, encl: RegionMem, req: EdbgrdReq, stack: Stack)
    requires 0 <= SignedLen(req.len)
    ensures var o := EdbgrdEffect(vmas, user, encl, req, stack);
      && (req.write != 0 ==> (o.ret == -EFAULT <==> !Readable(user, Addr(req.val), SignedLen(req.len))))
      && (req.write == 0 ==> (o.ret == -EFAULT <==> !Writable(user, Addr(req.val), SignedLen(req.len))))
      && (req.write != 0 && o.ret == -EFAULT ==> o.encl == encl)
  {
  }

  /**
   * Writing `len` bytes into an enclave and reading them back from the same
   * address returns them, when the area has an access routine that reaches
   * every byte.
   */
  lemma EdbgrdWriteThenRead(vmas: seq<Vma>, user: UserMem, encl: RegionMem,
                            wr: EdbgrdReq, rd: EdbgrdReq, s1: Stack, s2: Stack)
    requires wr.write != 0 && rd.write == 0 && rd.adrs == wr.adrs && rd.len == wr.len
    requires 0 <= SignedLen(wr.len)
    requires HasAccess(vmas, Addr(wr.adrs))
    requires Reach(encl, Addr(wr.adrs), SignedLen(wr.len)) == SignedLen(wr.len)
    requires Readable(user, Addr(wr.val), SignedLen(wr.len)) && Writable(user, Addr(rd.val), SignedLen(wr.len))
    ensures var o1 := EdbgrdEffect(vmas, user, encl, wr, s1);
            var o2 := EdbgrdEffect(vmas, o1.user, o1.encl, rd, s2);
            && o1.ret == 0 && o2.ret == 0 && o1.user == user
            && o2.user == Write(user, Addr(rd.val), Read(user, Addr(wr.val), SignedLen(wr.len)))
            && Readable(o2.user, Addr(rd.val), SignedLen(wr.len))
            && Read(o2.user, Addr(rd.val), SignedLen(wr.len)) == Read(user, Addr(wr.val), SignedLen(wr.len))
  {
    var n := SignedLen(wr.len);
    var data := Read(user, Addr(wr.val), n);
    var o1 := EdbgrdEffect(vmas, user, encl, wr, s1);
    assert o1.encl == AccessWrite(encl, Addr(wr.adrs), data);
    ReachSameKeys(o1.encl, encl, Addr(wr.adrs), n);
    AccessRoundTrip(encl, Addr(wr.adrs), data, StackBytes(s2, n));
    var o2 := EdbgrdEffect(vmas, o1.user, o1.encl, rd, s2);
    assert o2.user == Write(user, Addr(rd.val), data);
    ReadAfterWrite(user, Addr(rd.val), data);
  }

  /**
   * A read from an address with no area, or an area without an access
   * routine, still succeeds: the uninitialised buffer, that is `len` bytes
   * of kernel stack, is copied out to the caller.
   */
  lemma EdbgrdReadWithoutRegion(vmas: seq<Vma>, user: UserMem, encl: RegionMem, req: EdbgrdReq, stack: Stack)
    requires 0 <= SignedLen(req.len) && req.write == 0
    requires !HasAccess(vmas, Addr(req.adrs))
    requires Writable(user, Addr(req.val), SignedLen(req.len))
    ensures var o := EdbgrdEffect(vmas, user, encl, req, stack);
      && o.ret == 0 && o.encl == encl
      && o.user == Write(user, Addr(req.val), StackBytes(stack, SignedLen(req.len)))
  {
  }

  /**
   * A successful read hands the caller the kernel stack's byte at every
   * offset the access routine did not fill: all of them when there is no
   * routine, those from its first unreachable byte on otherwise.
   */
  lemma EdbgrdReadLeaksStack(vmas: seq<Vma>, user: UserMem, encl: RegionMem, req: EdbgrdReq, stack: Stack)
    requires 0 <= SignedLen(req.len) && req.write == 0
    requires Writable(user, Addr(req.val), SignedLen(req.len))
    ensures var o := EdbgrdEffect(vmas, user, encl, req, stack);
      var n := SignedLen(req.len);
      var k := if HasAccess(vmas, Addr(req.adrs)) then Reach(encl, Addr(req.adrs), n) else 0;
      && o.ret == 0 && Readable(o.user, Addr(req.val), n)
      && forall i :: k <= i < n ==> Read(o.user, Addr(req.val), n)[i] == stack(i)
  {
    var n := SignedLen(req.len);
    var buf := StackBytes(stack, n);
    var t := Edbgrdwr(vmas, encl, Addr(req.adrs), buf, req.write);
    ReadAfterWrite(user, Addr(req.val), t.buf);
  }

  // ---------------------------------------------------------------------
  // Properties of the dispatcher

  /**
   * The dispatcher answers 0, -EINVAL or -EFAULT; -EINVAL exactly for an
   * unknown command, which changes nothing; a known command whose argument
   * cannot be staged in gets -EFAULT before its handler runs.
   */
  lemma IoctlStatus(ctx: Context, w: World, cmd: bv32, arg: nat, stack: Stack)
    requires LenDefined(cmd, arg, w.user)
    ensures var r := IoctlSpec(ctx, w, cmd, arg, stack);
      && (r.ret == 0 || r.ret == -EINVAL || r.ret == -EFAULT)
      && (r.ret == -EINVAL <==> CommandOf(cmd).None?)
      && (CommandOf(cmd).None? ==> r.world == w)
      && (CommandOf(cmd).Some? && !Readable(w.user, arg, IocSize(cmd)) ==> r == Reply(-EFAULT, w))
  {
    match CommandOf(cmd)
    case None =>
    case Some(c) =>
      DispatchStatus(ctx, w, c, arg, stack);
  }

  /**
   * A known command is answered with 0 or -EFAULT, never with the size
   * guard's error, and with -EFAULT and no change when its argument cannot
   * be staged in.
   */
  lemma DispatchStatus(ctx: Context, w: World, c: Command, arg: nat, stack: Stack)
    requires StagedLenDefined(c, arg, w.user)
    ensures var r := Dispatch(ctx, w, c, arg, stack);
      && (r.ret == 0 || r.ret == -EFAULT)
      && (!Readable(w.user, arg, SizeOf(c)) ==> r == Reply(-EFAULT, w))
  {
    assert IocSize(CmdNumber(c)) == SizeOf(c) < 256;
  }

  /** A known command's number selects that command, so step_ioctl dispatches it. */
  lemma IoctlKnown(ctx: Context, w: World, c: Command, arg: nat, stack: Stack)
    requires StagedLenDefined(c, arg, w.user)
    ensures LenDefined(CmdNumber(c), arg, w.user)
    ensures IoctlSpec(ctx, w, CmdNumber(c), arg, stack) == Dispatch(ctx, w, c, arg, stack)
  {
    assert CommandOf(CmdNumber(c)) == Some(c);
  }

  /**
   * A known command touches user memory only in the IocSize(cmd) bytes at
   * `arg` and, for EDBGRD, wherever its handler wrote; it copies back exactly
   * the handler's staged bytes when the handler succeeded, and on a handler
   * failure returns 0 without copying back.
   */
  lemma IoctlCopyBack(ctx: Context, w: World, c: Command, arg: nat, stack: Stack)
    requires Readable(w.user, arg, SizeOf(c))
    requires StagedLenDefined(c, arg, w.user)
    ensures var n := SizeOf(c);
      var h := Handle(c, ctx, w, Read(w.user, arg, n), stack);
      var r := Dispatch(ctx, w, c, arg, stack);
      && (h.ret != 0 ==> r == Reply(0, h.world))
      && (h.ret == 0 && Writable(h.world.user, arg, n) ==>
            r.ret == 0 && r.world == h.world.(user := Write(h.world.user, arg, h.bytes)))
      && (h.ret == 0 && !Writable(h.world.user, arg, n) ==> r == Reply(-EFAULT, h.world))
  {
    assert IocSize(CmdNumber(c)) == SizeOf(c) < 256;
  }

  /**
   * A victim-info request with a zero `tcs` fails in its handler, yet the
   * dispatcher returns 0 and writes nothing, even on an argument the caller
   * may not write.
   */
  lemma InfoNullTcsSwallowed(ctx: Context, w: World, arg: nat, stack: Stack)
    requires Readable(w.user, arg, ENCLAVE_INFO_SIZE)
    requires DecodeInfo(Read(w.user, arg, ENCLAVE_INFO_SIZE)).tcs == 0
    ensures IoctlSpec(ctx, w, SGX_STEP_IOCTL_VICTIM_INFO, arg, stack) == Reply(0, w)
  {
    IoctlKnown(ctx, w, VictimInfo, arg, stack);
    IoctlCopyBack(ctx, w, VictimInfo, arg, stack);
  }

  /**
   * A successful victim-info request returns 0 and stores the handler's
   * record over the argument, changing nothing else.
   */
  lemma InfoReply(ctx: Context, w: World, arg: nat, stack: Stack)
    requires Writable(w.user, arg, ENCLAVE_INFO_SIZE)
    requires IoctlInfo(ctx.vmas, DecodeInfo(Read(w.user, arg, ENCLAVE_INFO_SIZE))).0 == 0
    ensures var out := IoctlInfo(ctx.vmas, DecodeInfo(Read(w.user, arg, ENCLAVE_INFO_SIZE))).1;
      IoctlSpec(ctx, w, SGX_STEP_IOCTL_VICTIM_INFO, arg, stack) == Reply(0, w.(user := Write(w.user, arg, EncodeInfo(out))))
  {
    IoctlKnown(ctx, w, VictimInfo, arg, stack);
    IoctlCopyBack(ctx, w, VictimInfo, arg, stack);
  }

  /**
   * After a successful victim-info request the argument holds the enclave's
   * `base` and `size` next to the caller's own `aep` and `tcs`.
   */
  lemma InfoWritesBaseAndSize(ctx: Context, w: World, arg: nat, stack: Stack)
    requires Writable(w.user, arg, ENCLAVE_INFO_SIZE)
    requires IoctlInfo(ctx.vmas, DecodeInfo(Read(w.user, arg, ENCLAVE_INFO_SIZE))).0 == 0
    ensures var r := IoctlSpec(ctx, w, SGX_STEP_IOCTL_VICTIM_INFO, arg, stack);
      var info := DecodeInfo(Read(w.user, arg, ENCLAVE_INFO_SIZE));
      var e := EnclaveAt(ctx.vmas, Addr(info.tcs)).value;
      && r.ret == 0 && r.world.encl == w.encl && r.world.cr4 == w.cr4
      && Readable(r.world.user, arg, ENCLAVE_INFO_SIZE)
      && DecodeInfo(Read(r.world.user, arg, ENCLAVE_INFO_SIZE)) == EnclaveInfo(e.base, e.size, info.aep, info.tcs)
  {
    var out := IoctlInfo(ctx.vmas, DecodeInfo(Read(w.user, arg, ENCLAVE_INFO_SIZE))).1;
    InfoReply(ctx, w, arg, stack);
    ReadAfterWrite(w.user, arg, EncodeInfo(out));
    InfoRoundTrip(out);
  }

  /**
   * A successful victim-info request stores back the bytes of `aep` and
   * `tcs` exactly as the caller left them.
   */
  lemma InfoKeepsAepAndTcsBytes(ctx: Context, w: World, arg: nat, stack: Stack)
    requires Writable(w.user, arg, ENCLAVE_INFO_SIZE)
    requires IoctlInfo(ctx.vmas, DecodeInfo(Read(w.user, arg, ENCLAVE_INFO_SIZE))).0 == 0
    ensures var r := IoctlSpec(ctx, w, SGX_STEP_IOCTL_VICTIM_INFO, arg, stack);
      && Readable(r.world.user, arg + 16, 16) && Readable(w.user, arg + 16, 16)
      && Read(r.world.user, arg + 16, 16) == Read(w.user, arg + 16, 16)
  {
    var b := Read(w.user, arg, ENCLAVE_INFO_SIZE);
    var info := DecodeInfo(b);
    var e := EnclaveAt(ctx.vmas, Addr(info.tcs)).value;
    var enc := EncodeInfo(info.(base := e.base, size := e.size));
    assert IoctlInfo(ctx.vmas, info).1 == info.(base := e.base, size := e.size);
    InfoReply(ctx, w, arg, stack);
    var u := Write(w.user, arg, enc);
    assert Read(u, arg, ENCLAVE_INFO_SIZE) == enc by {
      ReadAfterWrite(w.user, arg, enc);
    }
    assert Read(u, arg + 16, 16) == enc[16..] by {
      ReadSlice(u, arg, ENCLAVE_INFO_SIZE, 16);
    }
    assert Read(w.user, arg + 16, 16) == b[16..] by {
      ReadSlice(w.user, arg, ENCLAVE_INFO_SIZE, 16);
    }
    InfoBytesTailKept(b, e.base, e.size);
  }

  /**
   * A page-table request with a writable argument succeeds, leaves the walk's
   * record in user memory and CR4 with SMEP and SMAP cleared.
   */
  lemma PtMappingReply(ctx: Context, w: World, arg: nat, stack: Stack)
    requires Writable(w.user, arg, ADDRESS_MAPPING_SIZE)
    ensures var r := IoctlSpec(ctx, w, SGX_STEP_IOCTL_GET_PT_MAPPING, arg, stack);
      var virt := DecodeMapping(Read(w.user, arg, ADDRESS_MAPPING_SIZE)).virt;
      && r.ret == 0 && r.world.cr4 == ClearSmepSmap(w.cr4) && r.world.encl == w.encl
      && Readable(r.world.user, arg, ADDRESS_MAPPING_SIZE)
      && DecodeMapping(Read(r.world.user, arg, ADDRESS_MAPPING_SIZE)) == WalkSpec(ctx.paging, ctx.pt, ctx.root, virt)
  {
    var virt := DecodeMapping(Read(w.user, arg, ADDRESS_MAPPING_SIZE)).virt;
    IoctlKnown(ctx, w, GetPtMapping, arg, stack);
    IoctlCopyBack(ctx, w, GetPtMapping, arg, stack);
    ReadAfterWrite(w.user, arg, EncodeMapping(WalkSpec(ctx.paging, ctx.pt, ctx.root, virt)));
    MappingRoundTrip(WalkSpec(ctx.paging, ctx.pt, ctx.root, virt));
  }

  /** INVPG with a writable argument succeeds and, copying back the bytes it read, changes nothing. */
  lemma InvpgChangesNothing(ctx: Context, w: World, arg: nat, stack: Stack)
    requires Writable(w.user, arg, INVPG_SIZE)
    ensures IoctlSpec(ctx, w, SGX_STEP_IOCTL_INVPG, arg, stack) == Reply(0, w)
  {
    IoctlKnown(ctx, w, Invpg, arg, stack);
    IoctlCopyBack(ctx, w, Invpg, arg, stack);
    InvpgBytesRoundTrip(Read(w.user, arg, INVPG_SIZE));
    WriteBackUnchanged(w.user, arg, INVPG_SIZE);
  }

  /**
   * The contrast to InfoNullTcsSwallowed: a handler that succeeds on an
   * argument the caller may read but not write has its reply refused with
   * -EFAULT by the copy-back.
   */
  lemma InvpgReadOnlyFaults(ctx: Context, w: World, arg: nat, stack: Stack)
    requires Readable(w.user, arg, INVPG_SIZE) && !Writable(w.user, arg, INVPG_SIZE)
    ensures IoctlSpec(ctx, w, SGX_STEP_IOCTL_INVPG, arg, stack) == Reply(-EFAULT, w)
  {
    IoctlKnown(ctx, w, Invpg, arg, stack);
    IoctlCopyBack(ctx, w, Invpg, arg, stack);
  }

  /**
   * EDBGRD through step_ioctl, with a writable argument: the ioctl returns 0
   * whatever the handler returned, even when its copy to or from `val`
   * faulted; when the handler succeeded, the request bytes it left unchanged
   * are copied back over `arg`, after the handler's own write to `val`.
   */
  lemma EdbgrdReply(ctx: Context, w: World, arg: nat, stack: Stack)
    requires Writable(w.user, arg, EDBGRD_SIZE)
    requires 0 <= SignedLen(DecodeEdbgrd(Read(w.user, arg, EDBGRD_SIZE)).len)
    ensures var b := Read(w.user, arg, EDBGRD_SIZE);
      var o := EdbgrdEffect(ctx.vmas, w.user, w.encl, DecodeEdbgrd(b), stack);
      IoctlSpec(ctx, w, SGX_STEP_IOCTL_EDBGRD, arg, stack)
        == Reply(0, w.(user := if o.ret == 0 then Write(o.user, arg, b) else o.user, encl := o.encl))
  {
    var b := Read(w.user, arg, EDBGRD_SIZE);
    var req := DecodeEdbgrd(b);
    var o := EdbgrdEffect(ctx.vmas, w.user, w.encl, req, stack);
    IoctlKnown(ctx, w, Edbgrd, arg, stack);
    IoctlCopyBack(ctx, w, Edbgrd, arg, stack);
    if req.write == 0 && o.ret == 0 {
      WriteFrame(w.user, Addr(req.val), StackBytes(stack, SignedLen(req.len)), arg, EDBGRD_SIZE);
      assert Writable(o.user, arg, EDBGRD_SIZE);
    }
  }

  /**
   * Writing `len` bytes into an enclave with one EDBGRD ioctl and reading
   * them back with another returns them at the read's `val`, when the area
   * has an access routine that reaches every byte and the read's `val`
   * does not overlap its own request. The first ioctl changes only the
   * enclave.
   */
  lemma EdbgrdIoctlWriteThenRead(ctx: Context, w: World, a1: nat, a2: nat, wr: EdbgrdReq, rd: EdbgrdReq, s1: Stack, s2: Stack)
    requires Writable(w.user, a1, EDBGRD_SIZE) && DecodeEdbgrd(Read(w.user, a1, EDBGRD_SIZE)) == wr
    requires Writable(w.user, a2, EDBGRD_SIZE) && DecodeEdbgrd(Read(w.user, a2, EDBGRD_SIZE)) == rd
    requires wr.write != 0 && rd.write == 0 && rd.adrs == wr.adrs && rd.len == wr.len
    requires 0 <= SignedLen(wr.len)
    requires HasAccess(ctx.vmas, Addr(wr.adrs))
    requires Reach(w.encl, Addr(wr.adrs), SignedLen(wr.len)) == SignedLen(wr.len)
    requires Readable(w.user, Addr(wr.val), SignedLen(wr.len)) && Writable(w.user, Addr(rd.val), SignedLen(wr.len))
    requires Addr(rd.val) + SignedLen(wr.len) <= a2 || a2 + EDBGRD_SIZE <= Addr(rd.val)
    ensures IoctlSpec(ctx, w, SGX_STEP_IOCTL_EDBGRD, a1, s1)
              == Reply(0, w.(encl := AccessWrite(w.encl, Addr(wr.adrs), Read(w.user, Addr(wr.val), SignedLen(wr.len)))))
    ensures var r2 := IoctlSpec(ctx, w.(encl := AccessWrite(w.encl, Addr(wr.adrs), Read(w.user, Addr(wr.val), SignedLen(wr.len)))),
                                SGX_STEP_IOCTL_EDBGRD, a2, s2);
      && r2.ret == 0 && Readable(r2.world.user, Addr(rd.val), SignedLen(wr.len))
      && Read(r2.world.user, Addr(rd.val), SignedLen(wr.len)) == Read(w.user, Addr(wr.val), SignedLen(wr.len))
  {
    var n := SignedLen(wr.len);
    var data := Read(w.user, Addr(wr.val), n);
    var b2 := Read(w.user, a2, EDBGRD_SIZE);
    EdbgrdWriteThenRead(ctx.vmas, w.user, w.encl, wr, rd, s1, s2);
    var o1 := EdbgrdEffect(ctx.vmas, w.user, w.encl, wr, s1);
    var mid := w.(encl := o1.encl);
    assert IoctlSpec(ctx, w, SGX_STEP_IOCTL_EDBGRD, a1, s1) == Reply(0, mid) by {
      EdbgrdReply(ctx, w, a1, s1);
      WriteBackUnchanged(w.user, a1, EDBGRD_SIZE);
    }
    var o2 := EdbgrdEffect(ctx.vmas, w.user, o1.encl, rd, s2);
    assert IoctlSpec(ctx, mid, SGX_STEP_IOCTL_EDBGRD, a2, s2) == Reply(0, mid.(user := Write(o2.user, a2, b2), encl := o2.encl)) by {
      EdbgrdReply(ctx, mid, a2, s2);
    }
    WriteFrame(w.user, Addr(rd.val), data, a2, EDBGRD_SIZE);
    WriteFrame(o2.user, a2, b2, Addr(rd.val), n);
  }
}

=== FILE: handlers.dfy ===
/**
 * What each ioctl handler and the dispatcher step_ioctl do, as functions of
 * the state a command may change (user memory, enclave memory, CR4) and the
 * context it only reads (the process's areas, physical memory, the
 * page-table root). The imperative code in SgxStep is proved to behave as
 * these say; the lemmas here state what the driver promises about them.
 */
module Handlers {
  import opened Wrappers
  import opened Bytes
  import opened Errno
  import opened IoctlAbi
  import opened Uaccess
  import opened Regions
  import opened PageWalk

  /** The state a command can change. */
  datatype World = World(user: UserMem, encl: RegionMem, cr4: bv64)

  /** What a command reads and never changes. */
  datatype Context = Context(vmas: seq<Vma>, paging: Paging, pt: PhysMem, root: bv64)

  // ---------------------------------------------------------------------
  // SGX_STEP_IOCTL_VICTIM_INFO

  /**
   * sgx_step_ioctl_info: find the area at `tcs`; it must carry an enclave
   * descriptor, and `aep` and `tcs` must both be nonzero. Then `base` and
   * `size` are copied from the descriptor; `aep` and `tcs` are left alone.
   */
  function IoctlInfo(vmas: seq<Vma>, info: EnclaveInfo): (r: (int, EnclaveInfo))
    ensures r.0 == 0 <==> EnclaveAt(vmas, Addr(info.tcs)).Some? && info.aep != 0 && info.tcs != 0
    ensures r.0 != 0 ==> r.0 == ASSERT_FAILED && r.1 == info
    ensures r.0 == 0 ==> r.1 == EnclaveInfo(EnclaveAt(vmas, Addr(info.tcs)).value.base,
                                            EnclaveAt(vmas, Addr(info.tcs)).value.size, info.aep, info.tcs)
  {
    match EnclaveAt(vmas, Addr(info.tcs))
    case None => (ASSERT_FAILED, info)
    case Some(e) =>
      if info.aep == 0 || info.tcs == 0 then (ASSERT_FAILED, info)
      else (0, info.(base := e.base, size := e.size))
  }

  // ---------------------------------------------------------------------
  // SGX_STEP_IOCTL_INVPG

  /**
   * sgx_step_ioctl_invpg: flushes one TLB entry, which this model does not
   * represent, and always succeeds without touching the request.
   */
  function IoctlInvpg(req: InvpgReq): (r: (int, InvpgReq))
    ensures r.0 == 0 && r.1 == req
  {
    (0, req)
  }

  // ---------------------------------------------------------------------
  // SGX_STEP_IOCTL_EDBGRD

  datatype EdbgrdOutcome = EdbgrdOutcome(ret: int, user: UserMem, encl: RegionMem)

  /**
   * The kernel stack where sgx_step_ioctl_edbgrd places its variable-length
   * buffer, which it does not initialise: the byte found at each offset.
   */
  type Stack = nat -> byte

  /** The first `n` bytes of the stack. */
  function StackBytes(stack: Stack, n: nat): (b: seq<byte>)
    ensures |b| == n && forall i :: 0 <= i < n ==> b[i] == stack(i)
  {
    seq(n, (i: int) requires 0 <= i => stack(i))
  }

  /**
   * The `len`-byte buffer edbgrdwr is handed: the bytes at user address
   * `val` when writing (None if they cannot be read), and whatever the
   * stack held when reading.
   */
  function EdbgrdBuffer(user: UserMem, req: EdbgrdReq, stack: Stack): (b: Option<seq<byte>>)
    requires 0 <= SignedLen(req.len)
    ensures b.Some? ==> |b.value| == SignedLen(req.len)
    ensures b.None? <==> req.write != 0 && !Readable(user, Addr(req.val), SignedLen(req.len))
    ensures req.write != 0 && b.Some? ==> b.value == Read(user, Addr(req.val), SignedLen(req.len))
    ensures req.write == 0 ==> b == Some(StackBytes(stack, SignedLen(req.len)))
  {
    var n := SignedLen(req.len);
    if req.write != 0 then CopyFromUser(user, Addr(req.val), n) else Some(StackBytes(stack, n))
  }

  /**
   * sgx_step_ioctl_edbgrd: stage `len` bytes from user address `val` when
   * writing, hand the staging buffer to edbgrdwr at `adrs` (ignoring what it
   * returns), and copy the buffer back to `val` when reading. The buffer
   * starts out holding the stack's bytes.
   */
  function EdbgrdEffect(vmas: seq<Vma>, user: UserMem, encl: RegionMem, req: EdbgrdReq, stack: Stack): (o: EdbgrdOutcome)
    requires 0 <= SignedLen(req.len)
    ensures o.ret == 0 || o.ret == -EFAULT
    ensures req.write != 0 ==> o.user == user
    ensures req.write == 0 ==> o.encl == encl
  {
    match EdbgrdBuffer(user, req, stack)
    case None => EdbgrdOutcome(-EFAULT, user, encl)
    case Some(buf) =>
      var t := Edbgrdwr(vmas, encl, Addr(req.adrs), buf, req.write);
      if req.write != 0 then EdbgrdOutcome(0, user, t.mem)
      else
        match CopyToUser(user, Addr(req.val), t.buf)
        case None => EdbgrdOutcome(-EFAULT, user, t.mem)
        case Some(u) => EdbgrdOutcome(0, u, t.mem)
  }


  // ---------------------------------------------------------------------
  // step_ioctl

  /** The staging buffer, the handler's return value and the state after a handler ran. */
  datatype Staged = Staged(ret: int, bytes: seq<byte>, world: World)

  /**
   * sgx_step_ioctl_info on the staged bytes: on failure the bytes are left
   * exactly as received; on success they hold the updated record, and the
   * bytes of `aep` and `tcs` are the caller's.
   */
  function InfoHandler(ctx: Context, w: World, bytes: seq<byte>): (h: Staged)
    requires |bytes| == ENCLAVE_INFO_SIZE
    ensures h.world == w && |h.bytes| == ENCLAVE_INFO_SIZE
    ensures DecodeInfo(h.bytes) == IoctlInfo(ctx.vmas, DecodeInfo(bytes)).1
    ensures h.ret != 0 ==> h.ret == ASSERT_FAILED && h.bytes == bytes
    ensures h.bytes[16..] == bytes[16..]
  {
    var r := IoctlInfo(ctx.vmas, DecodeInfo(bytes));
    InfoRoundTrip(r.1);
    InfoBytesRoundTrip(bytes);
    InfoBytesTailKept(bytes, r.1.base, r.1.size);
    Staged(r.0, EncodeInfo(r.1), w)
  }

  /**
   * sgx_step_get_pt_mapping on the staged bytes: it succeeds, CR4 loses SMEP
   * and SMAP, and the bytes then hold the walk's record for the caller's
   * `virt`, which they keep.
   */
  function PtMappingHandler(ctx: Context, w: World, bytes: seq<byte>): (h: Staged)
    requires |bytes| == ADDRESS_MAPPING_SIZE
    ensures h.ret == 0 && h.world == w.(cr4 := ClearSmepSmap(w.cr4))
    ensures |h.bytes| == ADDRESS_MAPPING_SIZE
    ensures DecodeMapping(h.bytes) == WalkSpec(ctx.paging, ctx.pt, ctx.root, DecodeMapping(bytes).virt)
    ensures DecodeMapping(h.bytes).virt == DecodeMapping(bytes).virt && DecodeMapping(h.bytes).fun == 0
  {
    MappingRoundTrip(WalkSpec(ctx.paging, ctx.pt, ctx.root, DecodeMapping(bytes).virt));
    WalkRecord(ctx.paging, ctx.pt, ctx.root, DecodeMapping(bytes).virt);
    Staged(0, EncodeMapping(WalkSpec(ctx.paging, ctx.pt, ctx.root, DecodeMapping(bytes).virt)), w.(cr4 := ClearSmepSmap(w.cr4)))
  }

  /**
   * sgx_step_ioctl_edbgrd on the staged bytes, which it does not change; it
   * returns 0 or -EFAULT and leaves CR4 alone.
   */
  function EdbgrdHandler(ctx: Context, w: World, bytes: seq<byte>, stack: Stack): (h: Staged)
    requires |bytes| == EDBGRD_SIZE && 0 <= SignedLen(DecodeEdbgrd(bytes).len)
    ensures h.bytes == bytes && h.world.cr4 == w.cr4
    ensures h.ret == 0 || h.ret == -EFAULT
  {
    var o := EdbgrdEffect(ctx.vmas, w.user, w.encl, DecodeEdbgrd(bytes), stack);
    Staged(o.ret, bytes, w.(user := o.user, encl := o.encl))
  }

  /** sgx_step_ioctl_invpg on the staged bytes: 0, with the bytes and the state as they were. */
  function InvpgHandler(ctx: Context, w: World, bytes: seq<byte>): (h: Staged)
    requires |bytes| == INVPG_SIZE
    ensures h == Staged(0, bytes, w)
  {
    var r := IoctlInvpg(DecodeInvpg(bytes));
    InvpgBytesRoundTrip(bytes);
    Staged(r.0, EncodeInvpg(r.1), w)
  }

  /**
   * The handler a command selects, run on the staged bytes viewed as the
   * command's structure; what it writes into that structure is written back
   * into the staging bytes. Only EDBGRD looks at the stack.
   */
  function Handle(c: Command, ctx: Context, w: World, bytes: seq<byte>, stack: Stack): (h: Staged)
    requires |bytes| == SizeOf(c)
    requires c == Edbgrd ==> 0 <= SignedLen(DecodeEdbgrd(bytes).len)
    ensures |h.bytes| == |bytes|
    ensures c != GetPtMapping ==> h.world.cr4 == w.cr4
    ensures c != Edbgrd ==> h.world.user == w.user && h.world.encl == w.encl
  {
    match c
    case VictimInfo => InfoHandler(ctx, w, bytes)
    case GetPtMapping => PtMappingHandler(ctx, w, bytes)
    case Edbgrd => EdbgrdHandler(ctx, w, bytes, stack)
    case Invpg => InvpgHandler(ctx, w, bytes)
  }

  /**
   * EDBGRD's length must be non-negative for its staging buffer to exist;
   * this is the one thing the driver leaves to its caller.
   */
  predicate LenDefined(cmd: bv32, arg: nat, u: UserMem) {
    match CommandOf(cmd)
    case None => true
    case Some(c) => StagedLenDefined(c, arg, u)
  }

  /** LenDefined for a known command. */
  predicate StagedLenDefined(c: Command, arg: nat, u: UserMem) {
    (c == Edbgrd && Readable(u, arg, EDBGRD_SIZE)) ==> 0 <= SignedLen(DecodeEdbgrd(Read(u, arg, EDBGRD_SIZE)).len)
  }

  datatype Reply = Reply(ret: int, world: World)

  /**
   * step_ioctl: reject an unknown command, then dispatch the known one.
   * `stack` is what the kernel stack holds where EDBGRD's buffer goes.
   */
  function IoctlSpec(ctx: Context, w: World, cmd: bv32, arg: nat, stack: Stack): (r: Reply)
    requires LenDefined(cmd, arg, w.user)
  {
    match CommandOf(cmd)
    case None => Reply(-EINVAL, w)
    case Some(c) => Dispatch(ctx, w, c, arg, stack)
  }

  /**
   * step_ioctl for a known command: check the size guard, stage in exactly
   * _IOC_SIZE(cmd) bytes from `arg`, run the handler, and stage the bytes
   * back out when the handler returned 0 and the command has the IOC_OUT
   * bit. The handler's own error is not passed on.
   */
  function Dispatch(ctx: Context, w: World, c: Command, arg: nat, stack: Stack): (r: Reply)
    requires StagedLenDefined(c, arg, w.user)
  {
    var cmd := CmdNumber(c);
    var n := IocSize(cmd);
    if !(n < 256) then Reply(ASSERT_FAILED, w)
    else if !Readable(w.user, arg, n) then Reply(-EFAULT, w)
    else
      var h := Handle(c, ctx, w, Read(w.user, arg, n), stack);
      CopyBack(cmd, arg, h.ret, h.bytes, h.world)
  }

  /**
   * The end of step_ioctl, after the handler returned `ret` and left `bytes`
   * in the staging buffer: copy them back to `arg` when `ret` is 0 and the
   * command has the IOC_OUT bit, and return 0 unless that copy faults.
   */
  function CopyBack(cmd: bv32, arg: nat, ret: int, bytes: seq<byte>, w: World): (r: Reply)
    ensures r.ret == 0 || r.ret == -EFAULT
    ensures r.ret == -EFAULT <==> ret == 0 && cmd & IOC_OUT != 0 && !Writable(w.user, arg, |bytes|)
    ensures r.world.encl == w.encl && r.world.cr4 == w.cr4
    ensures r.world.user != w.user ==> ret == 0 && cmd & IOC_OUT != 0
  {
    if ret == 0 && cmd & IOC_OUT != 0 then
      if Writable(w.user, arg, |bytes|) then Reply(0, w.(user := Write(w.user, arg, bytes)))
      else Reply(-EFAULT, w)
    else Reply(0, w)
  }

}

=== FILE: ioctl_abi.dfy ===
/**
 * The user/kernel ABI of the SGX-Step device: the Linux asm-generic ioctl
 * command-number layout, the four command numbers, and the byte layouts of
 * the structures the commands carry (all little-endian, 8-byte aligned).
 */
module IoctlAbi {
  import opened Wrappers
  import opened Bytes

  // asm-generic/ioctl.h: nr in bits 0-7, type in bits 8-15, size in bits 16-29,
  // direction in bits 30-31.
  const IOC_NRSHIFT: bv32 := 0
  const IOC_TYPESHIFT: bv32 := 8
  const IOC_SIZESHIFT: bv32 := 16
  const IOC_DIRSHIFT: bv32 := 30
  const IOC_WRITE: bv32 := 1
  const IOC_READ: bv32 := 2
  /** Direction bit "the kernel writes the argument back": `_IOC_READ << _IOC_DIRSHIFT`. */
  const IOC_OUT: bv32 := 0x8000_0000
  /** Direction bit "the kernel reads the argument": `_IOC_WRITE << _IOC_DIRSHIFT`. */
  const IOC_IN: bv32 := 0x4000_0000

  /**
   * `_IOC(dir, type, nr, size)`: the four fields or-ed into their bit
   * ranges. Fields that fit their ranges do not overlap, so the number is
   * their weighted sum.
   */
  function Ioc(dir: bv32, typ: bv32, nr: bv32, size: bv32): (cmd: bv32)
    ensures cmd & 0xFF == nr & 0xFF
    ensures dir < 4 && typ < 0x100 && nr < 0x100 && size < 0x4000 ==>
      cmd == dir * 0x4000_0000 + size * 0x1_0000 + typ * 0x100 + nr
  {
    (dir << IOC_DIRSHIFT) | (typ << IOC_TYPESHIFT) | (nr << IOC_NRSHIFT) | (size << IOC_SIZESHIFT)
  }

  function IocDir(cmd: bv32): bv32 { (cmd >> IOC_DIRSHIFT) & 0x3 }
  function IocType(cmd: bv32): bv32 { (cmd >> IOC_TYPESHIFT) & 0xFF }
  function IocNr(cmd: bv32): bv32 { (cmd >> IOC_NRSHIFT) & 0xFF }
  /** `_IOC_SIZE(cmd)`: the 14-bit size field of a command number. */
  function IocSize(cmd: bv32): (n: nat)
    ensures n < 0x4000
  {
    ((cmd >> IOC_SIZESHIFT) & 0x3FFF) as nat
  }

  /** Decoding the fields of an encoded command number gives back the fields. */
  lemma IocRoundTrip(dir: bv32, typ: bv32, nr: bv32, size: bv32)
    requires dir < 4 && typ < 0x100 && nr < 0x100 && size < 0x4000
    ensures IocDir(Ioc(dir, typ, nr, size)) == dir
    ensures IocType(Ioc(dir, typ, nr, size)) == typ
    ensures IocNr(Ioc(dir, typ, nr, size)) == nr
    ensures IocSize(Ioc(dir, typ, nr, size)) == size as nat
  {
  }

  // Structure sizes (sizeof on x86-64).
  const ENCLAVE_INFO_SIZE: nat := 32
  const ADDRESS_MAPPING_SIZE: nat := 64
  const EDBGRD_SIZE: nat := 32
  const INVPG_SIZE: nat := 8

  const SGX_STEP_IOCTL_MAGIC: bv32 := 0x4C  // 'L'
  const SGX_STEP_IOCTL_VICTIM_INFO: bv32 := Ioc(IOC_READ | IOC_WRITE, SGX_STEP_IOCTL_MAGIC, 0, ENCLAVE_INFO_SIZE as bv32)
  const SGX_STEP_IOCTL_GET_PT_MAPPING: bv32 := Ioc(IOC_READ | IOC_WRITE, SGX_STEP_IOCTL_MAGIC, 1, ADDRESS_MAPPING_SIZE as bv32)
  const SGX_STEP_IOCTL_EDBGRD: bv32 := Ioc(IOC_READ | IOC_WRITE, SGX_STEP_IOCTL_MAGIC, 2, EDBGRD_SIZE as bv32)
  const SGX_STEP_IOCTL_INVPG: bv32 := Ioc(IOC_READ | IOC_WRITE, SGX_STEP_IOCTL_MAGIC, 3, INVPG_SIZE as bv32)

  /** The four commands the device understands. */
  datatype Command = VictimInfo | GetPtMapping | Edbgrd | Invpg

  /** The number of a command: its structure's size is in the size field, and IOC_OUT is set. */
  function CmdNumber(c: Command): (n: bv32)
    ensures IocSize(n) == SizeOf(c) < 256
    ensures n & IOC_OUT != 0
  {
    match c
    case VictimInfo => SGX_STEP_IOCTL_VICTIM_INFO
    case GetPtMapping => SGX_STEP_IOCTL_GET_PT_MAPPING
    case Edbgrd => SGX_STEP_IOCTL_EDBGRD
    case Invpg => SGX_STEP_IOCTL_INVPG
  }

  /** The size of the structure each command carries. */
  function SizeOf(c: Command): nat {
    match c
    case VictimInfo => ENCLAVE_INFO_SIZE
    case GetPtMapping => ADDRESS_MAPPING_SIZE
    case Edbgrd => EDBGRD_SIZE
    case Invpg => INVPG_SIZE
  }

  /**
   * The dispatcher's switch: the command a number selects, if any. The
   * cases never overlap, so a number selects at most one command.
   */
  function CommandOf(cmd: bv32): (c: Option<Command>)
    ensures c.Some? ==> CmdNumber(c.value) == cmd
    ensures forall k: Command :: CmdNumber(k) == cmd ==> c == Some(k)
  {
    if cmd == SGX_STEP_IOCTL_VICTIM_INFO then Some(VictimInfo)
    else if cmd == SGX_STEP_IOCTL_GET_PT_MAPPING then Some(GetPtMapping)
    else if cmd == SGX_STEP_IOCTL_EDBGRD then Some(Edbgrd)
    else if cmd == SGX_STEP_IOCTL_INVPG then Some(Invpg)
    else None
  }

  /**
   * Every command number carries magic 'L', its own nr 0..3, both direction
   * bits (_IOWR, so IOC_OUT is set) and its structure's size, which is below
   * the 256-byte staging buffer.
   */
  lemma CommandNumberLayout(c: Command)
    ensures IocType(CmdNumber(c)) == SGX_STEP_IOCTL_MAGIC
    ensures IocNr(CmdNumber(c)) == (match c case VictimInfo => 0 case GetPtMapping => 1 case Edbgrd => 2 case Invpg => 3)
    ensures IocDir(CmdNumber(c)) == IOC_READ | IOC_WRITE
    ensures CmdNumber(c) & IOC_OUT != 0 && CmdNumber(c) & IOC_IN != 0
    ensures IocSize(CmdNumber(c)) == SizeOf(c) < 256
  {
  }

  // ---------------------------------------------------------------------
  // Structures

  /** The 64-bit field stored at byte offset `off` of `b`. */
  function U64At(b: seq<byte>, off: nat): bv64
    requires off + 8 <= |b|
  {
    FromLe64(b[off..off + 8])
  }

  /** The 32-bit field stored at byte offset `off` of `b`. */
  function U32At(b: seq<byte>, off: nat): bv32
    requires off + 4 <= |b|
  {
    FromLe32(b[off..off + 4])
  }

  /** Consecutive 64-bit fields, each stored little-endian: the layout of a struct of uint64_t. */
  function PackU64s(vs: seq<bv64>): (b: seq<byte>)
    ensures |b| == 8 * |vs|
  {
    if vs == [] then [] else Le64(vs[0]) + PackU64s(vs[1..])
  }

  /** The 64-bit fields of a buffer whose length is a multiple of 8. */
  function UnpackU64s(b: seq<byte>): (vs: seq<bv64>)
    requires |b| % 8 == 0
    ensures 8 * |vs| == |b|
  {
    if b == [] then [] else [FromLe64(b[..8])] + UnpackU64s(b[8..])
  }

  /** Field `i` of a packed struct occupies bytes 8i .. 8i+8. */
  lemma {:induction false} PackAt(vs: seq<bv64>, i: nat)
    requires i < |vs|
    ensures PackU64s(vs)[8 * i..8 * i + 8] == Le64(vs[i])
  {
    var b := PackU64s(vs);
    assert b == Le64(vs[0]) + PackU64s(vs[1..]);
    if i > 0 {
      PackAt(vs[1..], i - 1);
      assert b[8 * i..8 * i + 8] == PackU64s(vs[1..])[8 * (i - 1)..8 * (i - 1) + 8];
    }
  }

  /** Eight bytes at `j` past the first field are the eight bytes at 8 + j. */
  lemma TailSlice(b: seq<byte>, j: nat)
    requires 8 + j + 8 <= |b|
    ensures b[8..][j..j + 8] == b[8 + j..8 + j + 8]
  {
  }

  /** Unpacking reads field `i` from bytes 8i .. 8i+8. */
  lemma {:induction false} UnpackAt(b: seq<byte>, i: nat)
    requires |b| % 8 == 0 && 8 * i + 8 <= |b|
    ensures UnpackU64s(b)[i] == U64At(b, 8 * i)
  {
    if i > 0 {
      var j := 8 * (i - 1);
      UnpackAt(b[8..], i - 1);
      assert 8 + j == 8 * i;
      TailSlice(b, j);
      assert UnpackU64s(b)[i] == UnpackU64s(b[8..])[i - 1];
    }
  }

  /** Packing the unpacked fields rebuilds the buffer. */
  lemma {:induction false} PackUnpack(b: seq<byte>)
    requires |b| % 8 == 0
    ensures PackU64s(UnpackU64s(b)) == b
  {
    if b != [] {
      var vs := UnpackU64s(b);
      assert vs[1..] == UnpackU64s(b[8..]);
      PackUnpack(b[8..]);
      FromLe64RoundTrip(b[..8]);
      assert b == b[..8] + b[8..];
    }
  }

  /** A field written with Le64 reads back through U64At. */
  lemma U64AtLe64(b: seq<byte>, off: nat, v: bv64)
    requires off + 8 <= |b| && b[off..off + 8] == Le64(v)
    ensures U64At(b, off) == v
  {
    Le64RoundTrip(v);
  }

  /** Reading field `i` of packed fields gives back `vs[i]`. */
  lemma PackedField(vs: seq<bv64>, i: nat)
    requires i < |vs|
    ensures U64At(PackU64s(vs), 8 * i) == vs[i]
  {
    PackAt(vs, i);
    U64AtLe64(PackU64s(vs), 8 * i, vs[i]);
  }

  /** struct sgx_step_enclave_info */
  datatype EnclaveInfo = EnclaveInfo(base: bv64, size: bv64, aep: bv64, tcs: bv64)

  function EncodeInfo(x: EnclaveInfo): (b: seq<byte>)
    ensures |b| == ENCLAVE_INFO_SIZE
  {
    PackU64s([x.base, x.size, x.aep, x.tcs])
  }

  /** Field offsets: base@0, size@8, aep@16, tcs@24. */
  function DecodeInfo(b: seq<byte>): EnclaveInfo
    requires |b| == ENCLAVE_INFO_SIZE
  {
    EnclaveInfo(U64At(b, 0), U64At(b, 8), U64At(b, 16), U64At(b, 24))
  }

  /** address_mapping_t; `fun` is the 8-byte function pointer. */
  datatype AddressMapping = AddressMapping(
    virt: bv64, phys: bv64, pgdPhysAddress: bv64,
    pgd: bv64, pud: bv64, pmd: bv64, pte: bv64, fun: bv64)

  function EncodeMapping(x: AddressMapping): (b: seq<byte>)
    ensures |b| == ADDRESS_MAPPING_SIZE
  {
    PackU64s([x.virt, x.phys, x.pgdPhysAddress, x.pgd, x.pud, x.pmd, x.pte, x.fun])
  }

  /** Field offsets: virt@0, phys@8, pgd_phys_address@16, pgd@24, pud@32, pmd@40, pte@48, fun@56. */
  function DecodeMapping(b: seq<byte>): AddressMapping
    requires |b| == ADDRESS_MAPPING_SIZE
  {
    AddressMapping(U64At(b, 0), U64At(b, 8), U64At(b, 16), U64At(b, 24),
                   U64At(b, 32), U64At(b, 40), U64At(b, 48), U64At(b, 56))
  }

  /**
   * edbgrd_t: `len` is an int64_t kept here as its raw 64 bits, `write` an
   * int kept as its raw 32 bits, and `pad` the 4 bytes of tail padding.
   */
  datatype EdbgrdReq = EdbgrdReq(adrs: bv64, val: bv64, len: bv64, write: bv32, pad: bv32)

  function EncodeEdbgrd(x: EdbgrdReq): (b: seq<byte>)
    ensures |b| == EDBGRD_SIZE
  {
    PackU64s([x.adrs, x.val, x.len]) + Le32(x.write) + Le32(x.pad)
  }

  /** Field offsets: adrs@0, val@8, len@16, write@24, padding@28. */
  function DecodeEdbgrd(b: seq<byte>): EdbgrdReq
    requires |b| == EDBGRD_SIZE
  {
    EdbgrdReq(U64At(b, 0), U64At(b, 8), U64At(b, 16), U32At(b, 24), U32At(b, 28))
  }

  /** The value of a two's-complement int64_t. */
  function SignedLen(len: bv64): (n: int)
    ensures -0x8000_0000_0000_0000 <= n < 0x8000_0000_0000_0000
    ensures n >= 0 ==> n == len as int
  {
    var u := len as int;
    if u < 0x8000_0000_0000_0000 then u else u - 0x1_0000_0000_0000_0000
  }

  /**
   * SignedLen is the two's-complement reading: with its int64 range, being
   * congruent to the raw bits modulo 2^64 fixes its value.
   */
  lemma SignedLenTwosComplement(len: bv64)
    ensures SignedLen(len) % 0x1_0000_0000_0000_0000 == len as int
  {
    Int64Congruent(len as int);
  }

  /** With the sign bit clear, the length reads as its bits' own value. */
  lemma SignedLenNonNegative(len: bv64)
    requires len as int < 0x8000_0000_0000_0000
    ensures SignedLen(len) == len as int
  {
    SignedLenTwosComplement(len);
  }

  /** Taking 2^64 off a value in [2^63, 2^64) keeps it congruent modulo 2^64. */
  lemma Int64Congruent(u: int)
    requires 0 <= u < 0x1_0000_0000_0000_0000
    ensures (if u < 0x8000_0000_0000_0000 then u else u - 0x1_0000_0000_0000_0000) % 0x1_0000_0000_0000_0000 == u
  {
  }

  /** invpg_t */
  datatype InvpgReq = InvpgReq(adrs: bv64)

  function EncodeInvpg(x: InvpgReq): (b: seq<byte>)
    ensures |b| == INVPG_SIZE
  {
    PackU64s([x.adrs])
  }

  function DecodeInvpg(b: seq<byte>): InvpgReq
    requires |b| == INVPG_SIZE
  {
    InvpgReq(U64At(b, 0))
  }

  // ---------------------------------------------------------------------
  // Round trips: the typed view of a buffer and the buffer carry the same
  // information, so a handler working on the typed view works in place.

  lemma InfoRoundTrip(x: EnclaveInfo)
    ensures DecodeInfo(EncodeInfo(x)) == x
  {
    var vs := [x.base, x.size, x.aep, x.tcs];
    PackedField(vs, 0); PackedField(vs, 1); PackedField(vs, 2); PackedField(vs, 3);
  }

  /** Bytes 16..32 of a victim-info encoding are the packed `aep` and `tcs`. */
  lemma InfoTail(x: EnclaveInfo)
    ensures EncodeInfo(x)[16..] == PackU64s([x.aep, x.tcs])
  {
    var tail := PackU64s([x.aep, x.tcs]);
    assert [x.base, x.size, x.aep, x.tcs][1..] == [x.size, x.aep, x.tcs];
    assert [x.size, x.aep, x.tcs][1..] == [x.aep, x.tcs];
    assert PackU64s([x.size, x.aep, x.tcs]) == Le64(x.size) + tail;
    var head := Le64(x.base) + Le64(x.size);
    assert EncodeInfo(x) == head + tail;
    assert |head| == 16;
  }

  /** Setting `base` and `size` leaves bytes 16..32 (`aep`, `tcs`) of the encoding as they were. */
  lemma InfoTailUnchanged(x: EnclaveInfo, base: bv64, size: bv64)
    ensures EncodeInfo(x.(base := base, size := size))[16..] == EncodeInfo(x)[16..]
  {
    InfoTail(x);
    InfoTail(x.(base := base, size := size));
  }

  lemma InfoBytesRoundTrip(b: seq<byte>)
    requires |b| == ENCLAVE_INFO_SIZE
    ensures EncodeInfo(DecodeInfo(b)) == b
  {
    var vs := UnpackU64s(b);
    UnpackAt(b, 0); UnpackAt(b, 1); UnpackAt(b, 2); UnpackAt(b, 3);
    var x := DecodeInfo(b);
    assert [x.base, x.size, x.aep, x.tcs] == vs;
    PackUnpack(b);
  }

  /** Re-encoding a received victim-info record with new `base` and `size` keeps its last 16 bytes. */
  lemma InfoBytesTailKept(b: seq<byte>, base: bv64, size: bv64)
    requires |b| == ENCLAVE_INFO_SIZE
    ensures EncodeInfo(DecodeInfo(b).(base := base, size := size))[16..] == b[16..]
  {
    InfoBytesRoundTrip(b);
    InfoTailUnchanged(DecodeInfo(b), base, size);
  }

  /** Each of eight packed fields decodes to its value. */
  lemma PackedEight(vs: seq<bv64>)
    requires |vs| == 8
    ensures var b := PackU64s(vs);
      && U64At(b, 0) == vs[0] && U64At(b, 8) == vs[1] && U64At(b, 16) == vs[2] && U64At(b, 24) == vs[3]
      && U64At(b, 32) == vs[4] && U64At(b, 40) == vs[5] && U64At(b, 48) == vs[6] && U64At(b, 56) == vs[7]
  {
    PackedField(vs, 0); PackedField(vs, 1); PackedField(vs, 2); PackedField(vs, 3);
    PackedField(vs, 4); PackedField(vs, 5); PackedField(vs, 6); PackedField(vs, 7);
  }

  lemma MappingRoundTrip(x: AddressMapping)
    ensures DecodeMapping(EncodeMapping(x)) == x
  {
    var vs := [x.virt, x.phys, x.pgdPhysAddress, x.pgd, x.pud, x.pmd, x.pte, x.fun];
    PackedEight(vs);
  }

  lemma MappingBytesRoundTrip(b: seq<byte>)
    requires |b| == ADDRESS_MAPPING_SIZE
    ensures EncodeMapping(DecodeMapping(b)) == b
  {
    var vs := UnpackU64s(b);
    forall i | 0 <= i < 8 ensures vs[i] == U64At(b, 8 * i) {
      UnpackAt(b, i);
    }
    var x := DecodeMapping(b);
    assert [x.virt, x.phys, x.pgdPhysAddress, x.pgd, x.pud, x.pmd, x.pte, x.fun] == vs;
    PackUnpack(b);
  }

  lemma EdbgrdRoundTrip(x: EdbgrdReq)
    ensures DecodeEdbgrd(EncodeEdbgrd(x)) == x
  {
    var vs := [x.adrs, x.val, x.len];
    var b := EncodeEdbgrd(x);
    var packed := PackU64s(vs);
    PackAt(vs, 0); PackAt(vs, 1); PackAt(vs, 2);
    assert b[..24] == packed;
    assert b[16..24] == packed[16..24];
    assert b[0..8] == Le64(x.adrs);
    assert b[8..16] == Le64(x.val);
    assert b[16..24] == Le64(x.len);
    assert b[24..28] == Le32(x.write);
    assert b[28..32] == Le32(x.pad);
    U64AtLe64(b, 0, x.adrs); U64AtLe64(b, 8, x.val); U64AtLe64(b, 16, x.len);
    Le32RoundTrip(x.write); Le32RoundTrip(x.pad);
  }

  lemma EdbgrdBytesRoundTrip(b: seq<byte>)
    requires |b| == EDBGRD_SIZE
    ensures EncodeEdbgrd(DecodeEdbgrd(b)) == b
  {
    var head := b[..24];
    var vs := UnpackU64s(head);
    UnpackAt(head, 0); UnpackAt(head, 1); UnpackAt(head, 2);
    assert head[0..8] == b[0..8] && head[8..16] == b[8..16] && head[16..24] == b[16..24];
    var x := DecodeEdbgrd(b);
    assert [x.adrs, x.val, x.len] == vs;
    PackUnpack(head);
    FromLe32RoundTrip(b[24..28]); FromLe32RoundTrip(b[28..32]);
    assert b == head + b[24..28] + b[28..32];
  }

  lemma InvpgRoundTrip(x: InvpgReq)
    ensures DecodeInvpg(EncodeInvpg(x)) == x
  {
    PackedField([x.adrs], 0);
  }

  lemma InvpgBytesRoundTrip(b: seq<byte>)
    requires |b| == INVPG_SIZE
    ensures EncodeInvpg(DecodeInvpg(b)) == b
  {
    UnpackAt(b, 0);
    assert [DecodeInvpg(b).adrs] == UnpackU64s(b);
    PackUnpack(b);
  }
}

=== FILE: page_walk.dfy ===
/**
 * The x86-64 4-level page-table walk of sgx_step_get_pt_mapping, as a
 * function of a snapshot of physical memory: PGD -> (P4D, folded into the
 * PGD) -> PUD -> PMD -> PTE (section 4.5, "4-Level Paging", of the Intel
 * SDM, Volume 3A). What counts as a present entry at each level, and where
 * an entry leads, is the kernel's business and a parameter here (Paging).
 */
module PageWalk {
  import opened IoctlAbi

  /** Physical memory as the walk reads it: the 64-bit word at each physical address. */
  type PhysMem = bv64 -> bv64

  const PAGE_PRESENT: bv64 := 0x1
  /** Bit 7 of a PUD or PMD entry: the entry maps a large page. */
  const PAGE_PSE: bv64 := 0x80
  /** Bits 12-51 of an entry: the physical frame it names. */
  const PTE_PFN_MASK: bv64 := 0x000F_FFFF_FFFF_F000
  const PAGE_OFFSET_MASK: bv64 := 0xFFF
  const PAGE_SHIFT: bv64 := 12
  const X86_CR4_SMEP: bv64 := 0x10_0000  // bit 20
  const X86_CR4_SMAP: bv64 := 0x20_0000  // bit 21

  // The 9-bit table index each level takes from the virtual address.
  function PgdIndex(v: bv64): (i: bv64) ensures i < 512 { (v >> 39) & 0x1FF }
  function PudIndex(v: bv64): (i: bv64) ensures i < 512 { (v >> 30) & 0x1FF }
  function PmdIndex(v: bv64): (i: bv64) ensures i < 512 { (v >> 21) & 0x1FF }
  function PteIndex(v: bv64): (i: bv64) ensures i < 512 { (v >> 12) & 0x1FF }

  /**
   * The byte offset of the entry each index selects, eight times the index,
   * is the level's nine bits of the address moved down to bits 3-11: an
   * offset inside the table's 4 KiB.
   */
  lemma EntryOffsets(v: bv64)
    ensures PgdIndex(v) << 3 == (v >> 36) & 0xFF8 && PudIndex(v) << 3 == (v >> 27) & 0xFF8
    ensures PmdIndex(v) << 3 == (v >> 18) & 0xFF8 && PteIndex(v) << 3 == (v >> 9) & 0xFF8
  {
  }

  /** Addresses in the same 4 KiB page have the same four table indices. */
  lemma SamePageIndices(v: bv64, u: bv64)
    requires v >> 12 == u >> 12
    ensures PgdIndex(v) == PgdIndex(u) && PudIndex(v) == PudIndex(u)
    ensures PmdIndex(v) == PmdIndex(u) && PteIndex(v) == PteIndex(u)
  {
  }

  /**
   * The kernel's reading of page-table entries, level by level: whether an
   * entry is present (pgd_present, pud_present, pmd_present, pte_present),
   * the physical address of the table a present entry leads to (what
   * pud_offset, pmd_offset and pte_offset_map index into), and the page
   * frame number of a present PTE (pte_pfn), which PFN_PHYS shifts into a
   * physical address. They depend on the kernel's
   * configuration: with the P4D folded into the PGD, as on a 4-level
   * machine, pgd_present holds of every entry; pmd_present also accepts a
   * large or PROT_NONE entry; a large PUD's frame is masked to 1 GiB.
   */
  datatype Paging = Paging(
    pgdPresent: bv64 -> bool, pudPresent: bv64 -> bool,
    pmdPresent: bv64 -> bool, ptePresent: bv64 -> bool,
    pudTable: bv64 -> bv64, pmdTable: bv64 -> bv64, pteTable: bv64 -> bv64,
    pfn: bv64 -> bv64)

  /** The hardware's present bit (bit 0). */
  predicate Present(e: bv64) { e & PAGE_PRESENT != 0 }

  /** Bits 12-51 of an entry, a page-aligned physical address. */
  function Frame(e: bv64): (f: bv64)
    ensures f & PAGE_OFFSET_MASK == 0
  {
    e & PTE_PFN_MASK
  }

  /** The frame number in bits 12-51 of an entry: PFN_PHYS of it is the frame. */
  function Pfn(e: bv64): (n: bv64)
    ensures PfnPhys(n) == Frame(e)
  {
    Frame(e) >> PAGE_SHIFT
  }

  /** PFN_PHYS: a page frame number shifted into a physical address, page-aligned whatever the number. */
  function PfnPhys(n: bv64): (a: bv64)
    ensures a & PAGE_OFFSET_MASK == 0
    ensures a >> PAGE_SHIFT == n & 0x000F_FFFF_FFFF_FFFF
  {
    n << PAGE_SHIFT
  }

  /** The processor's own reading: the P bit at every level, and bits 12-51 as the next address. */
  const Hardware: Paging := Paging(Present, Present, Present, Present, Frame, Frame, Frame, Pfn)

  /** The set-up the driver was written for: the P4D folded into the PGD, so every PGD entry passes. */
  ghost predicate FoldedP4d(p: Paging) {
    forall e :: p.pgdPresent(e)
  }

  /** `frame` | (virt & 0xfff): a page frame with the page offset of `virt`. */
  function PhysAddr(frame: bv64, virt: bv64): bv64 {
    frame | (virt & PAGE_OFFSET_MASK)
  }

  /** The entry at `index` of the table at physical address `table`: the word at table + 8 * index. */
  function EntryAt(pt: PhysMem, table: bv64, index: bv64): bv64 {
    pt(table + (index << 3))
  }

  // The entry met at each level, each read from the table the previous level leads to.
  function PgdEntry(pt: PhysMem, root: bv64, v: bv64): bv64 {
    EntryAt(pt, root, PgdIndex(v))
  }
  function PudEntry(p: Paging, pt: PhysMem, root: bv64, v: bv64): bv64 {
    EntryAt(pt, p.pudTable(PgdEntry(pt, root, v)), PudIndex(v))
  }
  function PmdEntry(p: Paging, pt: PhysMem, root: bv64, v: bv64): bv64 {
    EntryAt(pt, p.pmdTable(PudEntry(p, pt, root, v)), PmdIndex(v))
  }
  function PteEntry(p: Paging, pt: PhysMem, root: bv64, v: bv64): bv64 {
    EntryAt(pt, p.pteTable(PmdEntry(p, pt, root, v)), PteIndex(v))
  }

  /** Whether each entry of the chain, PGD to PTE, is present by its level's test. */
  function Presence(p: Paging, pt: PhysMem, root: bv64, v: bv64): (bs: seq<bool>)
    ensures |bs| == 4
  {
    [p.pgdPresent(PgdEntry(pt, root, v)), p.pudPresent(PudEntry(p, pt, root, v)),
     p.pmdPresent(PmdEntry(p, pt, root, v)), p.ptePresent(PteEntry(p, pt, root, v))]
  }

  /**
   * How many entries of the chain the walk reads, given which are present:
   * the first, and each next one for as long as the current one is present.
   */
  function Depth(bs: seq<bool>): (d: nat)
    ensures |bs| > 0 ==> 1 <= d <= |bs|
    ensures |bs| == 0 ==> d == 0
  {
    if |bs| <= 1 then |bs| else if bs[0] then 1 + Depth(bs[1..]) else 1
  }

  /**
   * The record the walk leaves: `virt` kept, the root's physical address,
   * each level's raw entry up to the depth reached and zero below it,
   * `fun` cleared, and a physical address only behind a present PTE.
   */
  function WalkSpec(p: Paging, pt: PhysMem, root: bv64, virt: bv64): AddressMapping {
    var bs := Presence(p, pt, root, virt);
    var d := Depth(bs);
    var pte := PteEntry(p, pt, root, virt);
    AddressMapping(
      virt := virt,
      phys := if d == 4 && bs[3] then PhysAddr(PfnPhys(p.pfn(pte)), virt) else 0,
      pgdPhysAddress := root,
      pgd := PgdEntry(pt, root, virt),
      pud := if 1 < d then PudEntry(p, pt, root, virt) else 0,
      pmd := if 2 < d then PmdEntry(p, pt, root, virt) else 0,
      pte := if 3 < d then pte else 0,
      fun := 0)
  }

  /** CR4 with SMEP (bit 20) and SMAP (bit 21) cleared and every other bit kept. */
  function ClearSmepSmap(cr4: bv64): (r: bv64)
    ensures r & (X86_CR4_SMEP | X86_CR4_SMAP) == 0
    ensures r | (X86_CR4_SMEP | X86_CR4_SMAP) == cr4 | (X86_CR4_SMEP | X86_CR4_SMAP)
  {
    (cr4 & !X86_CR4_SMEP) & !X86_CR4_SMAP
  }

  // ---------------------------------------------------------------------
  // Properties of the walk

  /**
   * The walk reads past an entry only when it is present, and when it stops
   * short, it stops at a non-present entry.
   */
  lemma {:induction false} DepthStopRule(bs: seq<bool>)
    requires |bs| > 0
    ensures forall j :: 0 <= j < Depth(bs) - 1 ==> bs[j]
    ensures Depth(bs) < |bs| ==> !bs[Depth(bs) - 1]
  {
    if |bs| > 1 && bs[0] {
      DepthStopRule(bs[1..]);
      forall j | 0 <= j < Depth(bs) - 1 ensures bs[j] {
        if j > 0 { assert bs[j] == bs[1..][j - 1]; }
      }
    }
  }

  /** The depth of a four-level chain: one past the last present entry among the first three. */
  lemma ChainDepth(a: bool, b: bool, c: bool, d: bool)
    ensures Depth([a, b, c, d]) == if !a then 1 else if !b then 2 else if !c then 3 else 4
  {
    assert [a, b, c, d][1..] == [b, c, d];
    assert [b, c, d][1..] == [c, d];
    assert [c, d][1..] == [d];
    assert Depth([c, d]) == if c then 2 else 1;
    assert Depth([b, c, d]) == if b then 1 + Depth([c, d]) else 1;
  }

  /**
   * The walk's record level by level: each lower level is filled exactly when
   * every level above it is present, and the physical address is computed
   * exactly when all four are; `virt`, the root and the PGD entry are always
   * recorded and `fun` is zeroed.
   */
  lemma WalkRecord(p: Paging, pt: PhysMem, root: bv64, v: bv64)
    ensures var m := WalkSpec(p, pt, root, v);
      var pgd, pud, pmd, pte := PgdEntry(pt, root, v), PudEntry(p, pt, root, v), PmdEntry(p, pt, root, v), PteEntry(p, pt, root, v);
      var a, b, c, d := p.pgdPresent(pgd), p.pudPresent(pud), p.pmdPresent(pmd), p.ptePresent(pte);
      && m.virt == v && m.pgdPhysAddress == root && m.pgd == pgd && m.fun == 0
      && m.pud == (if a then pud else 0)
      && m.pmd == (if a && b then pmd else 0)
      && m.pte == (if a && b && c then pte else 0)
      && m.phys == (if a && b && c && d then PhysAddr(PfnPhys(p.pfn(pte)), v) else 0)
  {
    var bs := Presence(p, pt, root, v);
    ChainDepth(bs[0], bs[1], bs[2], bs[3]);
    assert bs == [bs[0], bs[1], bs[2], bs[3]];
  }

  /**
   * A fully present walk keeps the page offset of `virt` and takes the rest
   * of the address from the PTE's frame, PFN_PHYS(pte_pfn(pte)).
   */
  lemma WalkKeepsPageOffset(p: Paging, pt: PhysMem, root: bv64, v: bv64)
    requires p.pgdPresent(PgdEntry(pt, root, v)) && p.pudPresent(PudEntry(p, pt, root, v))
    requires p.pmdPresent(PmdEntry(p, pt, root, v)) && p.ptePresent(PteEntry(p, pt, root, v))
    ensures WalkSpec(p, pt, root, v).phys & PAGE_OFFSET_MASK == v & PAGE_OFFSET_MASK
    ensures WalkSpec(p, pt, root, v).phys & !PAGE_OFFSET_MASK == PfnPhys(p.pfn(PteEntry(p, pt, root, v)))
  {
    var frame := PfnPhys(p.pfn(PteEntry(p, pt, root, v)));
    WalkRecord(p, pt, root, v);
    assert WalkSpec(p, pt, root, v).phys == PhysAddr(frame, v);
    FrameOrOffset(frame, v);
  }

  /** A page-aligned frame has no offset bits, so or-ing in an offset splits cleanly. */
  lemma FrameOrOffset(f: bv64, v: bv64)
    requires f & PAGE_OFFSET_MASK == 0
    ensures PhysAddr(f, v) & PAGE_OFFSET_MASK == v & PAGE_OFFSET_MASK
    ensures PhysAddr(f, v) & !PAGE_OFFSET_MASK == f
  {
  }

  /**
   * Under the processor's reading, a walk through four entries with the P
   * bit set yields the PTE's bits 12-51 with the page offset of `virt`.
   */
  lemma HardwareKeepsPageOffset(pt: PhysMem, root: bv64, v: bv64)
    requires Present(PgdEntry(pt, root, v)) && Present(PudEntry(Hardware, pt, root, v))
    requires Present(PmdEntry(Hardware, pt, root, v)) && Present(PteEntry(Hardware, pt, root, v))
    ensures WalkSpec(Hardware, pt, root, v).phys & PAGE_OFFSET_MASK == v & PAGE_OFFSET_MASK
    ensures WalkSpec(Hardware, pt, root, v).phys & !PAGE_OFFSET_MASK == Frame(PteEntry(Hardware, pt, root, v))
  {
    WalkKeepsPageOffset(Hardware, pt, root, v);
  }

  /** Addresses with the same four table indices meet the same four entries. */
  lemma SameIndicesSameEntries(p: Paging, pt: PhysMem, root: bv64, v: bv64, u: bv64)
    requires PgdIndex(v) == PgdIndex(u) && PudIndex(v) == PudIndex(u)
    requires PmdIndex(v) == PmdIndex(u) && PteIndex(v) == PteIndex(u)
    ensures PgdEntry(pt, root, v) == PgdEntry(pt, root, u)
    ensures PudEntry(p, pt, root, v) == PudEntry(p, pt, root, u)
    ensures PmdEntry(p, pt, root, v) == PmdEntry(p, pt, root, u)
    ensures PteEntry(p, pt, root, v) == PteEntry(p, pt, root, u)
  {
    var pgd := PgdEntry(pt, root, v);
    assert pgd == PgdEntry(pt, root, u);
    var pud := PudEntry(p, pt, root, v);
    assert pud == PudEntry(p, pt, root, u);
    var pmd := PmdEntry(p, pt, root, v);
    assert pmd == PmdEntry(p, pt, root, u);
  }

  /**
   * Addresses with the same four table indices get the same record, apart
   * from `virt` and `phys`.
   */
  lemma SameIndicesSameWalk(p: Paging, pt: PhysMem, root: bv64, v: bv64, u: bv64)
    requires PgdIndex(v) == PgdIndex(u) && PudIndex(v) == PudIndex(u)
    requires PmdIndex(v) == PmdIndex(u) && PteIndex(v) == PteIndex(u)
    ensures WalkSpec(p, pt, root, v).(virt := u, phys := 0) == WalkSpec(p, pt, root, u).(phys := 0)
  {
    SameIndicesSameEntries(p, pt, root, v, u);
    WalkRecord(p, pt, root, v);
    WalkRecord(p, pt, root, u);
  }

  /**
   * Addresses in the same 4 KiB page meet the same entries and get the same
   * record, apart from `virt` and `phys`.
   */
  lemma SamePageSameWalk(p: Paging, pt: PhysMem, root: bv64, v: bv64, u: bv64)
    requires v >> 12 == u >> 12
    ensures WalkSpec(p, pt, root, v).(virt := u, phys := 0) == WalkSpec(p, pt, root, u).(phys := 0)
  {
    SamePageIndices(v, u);
    SameIndicesSameWalk(p, pt, root, v, u);
  }

  /** An address whose PGD entry is not present yields only virt, the root and that entry. */
  lemma WalkTopNotPresent(p: Paging, pt: PhysMem, root: bv64, v: bv64)
    requires !p.pgdPresent(PgdEntry(pt, root, v))
    ensures WalkSpec(p, pt, root, v) == AddressMapping(v, 0, root, PgdEntry(pt, root, v), 0, 0, 0, 0)
  {
    WalkRecord(p, pt, root, v);
  }

  /**
   * With the P4D folded into the PGD the early return after the PGD never
   * fires: the PUD entry is always recorded.
   */
  lemma FoldedWalkRecordsPud(p: Paging, pt: PhysMem, root: bv64, v: bv64)
    requires FoldedP4d(p)
    ensures WalkSpec(p, pt, root, v).pud == PudEntry(p, pt, root, v)
  {
    WalkRecord(p, pt, root, v);
    assert p.pgdPresent(PgdEntry(pt, root, v));
  }

  /**
   * The walk does not stop at a large page: a present PUD entry with the
   * page-size bit set is still followed as if it led to a page table, and
   * the word found there is recorded as the PMD.
   */
  lemma WalkFollowsLargePud(p: Paging, pt: PhysMem, root: bv64, v: bv64)
    requires p.pgdPresent(PgdEntry(pt, root, v)) && p.pudPresent(PudEntry(p, pt, root, v))
    requires PudEntry(p, pt, root, v) & PAGE_PSE != 0
    ensures WalkSpec(p, pt, root, v).pmd == pt(p.pmdTable(PudEntry(p, pt, root, v)) + (PmdIndex(v) << 3))
  {
    WalkRecord(p, pt, root, v);
  }
}

=== FILE: regions.dfy ===
/**
 * The process's virtual-memory areas as find_vma sees them, and the access
 * routine an isolation driver installs in an enclave area's vm_ops, through
 * which memory inside the enclave is read and written without dereferencing
 * it.
 */
module Regions {
  import opened Wrappers
  import opened Bytes
  import opened Errno

  /** The enclave descriptor a driver stores as an area's private data. */
  datatype Enclave = Enclave(base: bv64, size: bv64)

  /**
   * A virtual-memory area [start, end); `privateData` is the driver's enclave
   * descriptor, if any, and `hasAccess` whether its vm_ops has an access routine.
   */
  datatype Vma = Vma(start: nat, end: nat, privateData: Option<Enclave>, hasAccess: bool)

  /**
   * find_vma over the areas in ascending address order: the index of the
   * first area that ends above `addr`. The area need not contain `addr`
   * (its start may lie above it).
   */
  function FindVma(vmas: seq<Vma>, addr: nat): (r: Option<nat>)
    ensures r.Some? ==> r.value < |vmas| && addr < vmas[r.value].end
  {
    if vmas == [] then None
    else if addr < vmas[0].end then Some(0)
    else match FindVma(vmas[1..], addr)
      case None => None
      case Some(k) => Some(k + 1)
  }

  /**
   * find_vma returns the first area ending above `addr`: every area before
   * the one it returns, and every area when it returns none, ends at or
   * below `addr`.
   */
  lemma {:induction false} FindVmaIsFirst(vmas: seq<Vma>, addr: nat)
    ensures FindVma(vmas, addr).Some? ==> forall j :: 0 <= j < FindVma(vmas, addr).value ==> vmas[j].end <= addr
    ensures FindVma(vmas, addr).None? ==> forall j :: 0 <= j < |vmas| ==> vmas[j].end <= addr
  {
    if vmas != [] && vmas[0].end <= addr {
      FindVmaIsFirst(vmas[1..], addr);
      forall j | 1 <= j < |vmas| ensures vmas[j] == vmas[1..][j - 1] { }
    }
  }

  /**
   * The area find_vma returns for `addr` exists and has an access routine:
   * the first area ending above `addr` has one.
   */
  predicate HasAccess(vmas: seq<Vma>, addr: nat)
    ensures HasAccess(vmas, addr) <==>
      exists k :: 0 <= k < |vmas| && addr < vmas[k].end && vmas[k].hasAccess &&
        forall j :: 0 <= j < k ==> vmas[j].end <= addr
  {
    FindVmaIsFirst(vmas, addr);
    match FindVma(vmas, addr)
    case None => false
    case Some(k) => vmas[k].hasAccess
  }

  /** The enclave descriptor of the area find_vma returns for `addr`, if both exist. */
  function EnclaveAt(vmas: seq<Vma>, addr: nat): (e: Option<Enclave>)
    ensures e.Some? ==> exists k :: 0 <= k < |vmas| && addr < vmas[k].end && vmas[k].privateData == e
  {
    match FindVma(vmas, addr)
    case None => None
    case Some(k) => vmas[k].privateData
  }

  /** Enclave memory as the driver's access routine reaches it. */
  type RegionMem = map<nat, byte>

  /**
   * How many bytes of [addr, addr + n) the access routine transfers: it goes
   * in address order and stops at the first byte it cannot reach.
   */
  function Reach(m: RegionMem, addr: nat, n: nat): (k: nat)
    ensures k <= n
    ensures forall i :: addr <= i < addr + k ==> i in m
    ensures k < n ==> addr + k !in m
    decreases n
  {
    if n == 0 || addr !in m then 0 else 1 + Reach(m, addr + 1, n - 1)
  }

  /** The buffer after the access routine reads into it from `addr`. */
  function AccessRead(m: RegionMem, addr: nat, buf: seq<byte>): (r: seq<byte>)
    ensures |r| == |buf|
    ensures forall i :: 0 <= i < |buf| ==> r[i] == if i < Reach(m, addr, |buf|) then m[addr + i] else buf[i]
  {
    var k := Reach(m, addr, |buf|);
    seq(|buf|, i requires 0 <= i < |buf| => if i < k then m[addr + i] else buf[i])
  }

  /** Enclave memory after the access routine writes `buf` at `addr`. */
  function AccessWrite(m: RegionMem, addr: nat, buf: seq<byte>): (r: RegionMem)
    ensures r.Keys == m.Keys
    ensures forall i {:trigger r[i]} :: i in m ==> r[i] == if addr <= i < addr + Reach(m, addr, |buf|) then buf[i - addr] else m[i]
  {
    var k := Reach(m, addr, |buf|);
    map i | i in m :: if addr <= i < addr + k then buf[i - addr] else m[i]
  }

  /** The reach of a transfer depends only on which addresses are mapped. */
  lemma {:induction false} ReachSameKeys(m1: RegionMem, m2: RegionMem, addr: nat, n: nat)
    requires m1.Keys == m2.Keys
    ensures Reach(m1, addr, n) == Reach(m2, addr, n)
    decreases n
  {
    if n > 0 && addr in m1 {
      ReachSameKeys(m1, m2, addr + 1, n - 1);
    }
  }

  /** Reading back a range the routine fully wrote returns what was written. */
  lemma AccessRoundTrip(m: RegionMem, addr: nat, b: seq<byte>, junk: seq<byte>)
    requires Reach(m, addr, |b|) == |b| && |junk| == |b|
    ensures AccessRead(AccessWrite(m, addr, b), addr, junk) == b
  {
    var w := AccessWrite(m, addr, b);
    ReachSameKeys(w, m, addr, |b|);
    var r := AccessRead(w, addr, junk);
    forall i | 0 <= i < |b| ensures r[i] == b[i] {
      AccessWriteAt(m, addr, b, i);
    }
  }

  /** A byte inside the reach of a write holds what was written there. */
  lemma AccessWriteAt(m: RegionMem, addr: nat, b: seq<byte>, i: nat)
    requires Reach(m, addr, |b|) == |b| && i < |b|
    ensures addr + i in AccessWrite(m, addr, b) && AccessWrite(m, addr, b)[addr + i] == b[i]
  {
  }

  /** Outcome of edbgrdwr: its return value, the staging buffer, and enclave memory. */
  datatype Transfer = Transfer(ret: int, buf: seq<byte>, mem: RegionMem)

  /**
   * edbgrdwr: look up the area at `addr` and, when it has an access routine,
   * let that routine read into `buf` (write == 0) or write `buf` out
   * (write != 0); it returns how many bytes moved.
   */
  function Edbgrdwr(vmas: seq<Vma>, m: RegionMem, addr: nat, buf: seq<byte>, write: bv32): (t: Transfer)
    ensures |t.buf| == |buf|
    ensures write != 0 ==> t.buf == buf
    ensures write == 0 ==> t.mem == m
    ensures t.ret == ASSERT_FAILED <==> !HasAccess(vmas, addr)
    ensures t.ret == ASSERT_FAILED ==> t.buf == buf && t.mem == m
  {
    match FindVma(vmas, addr)
    case None => Transfer(ASSERT_FAILED, buf, m)
    case Some(k) =>
      if !vmas[k].hasAccess then Transfer(ASSERT_FAILED, buf, m)
      else if write != 0 then Transfer(Reach(m, addr, |buf|), buf, AccessWrite(m, addr, buf))
      else Transfer(Reach(m, addr, |buf|), AccessRead(m, addr, buf), m)
  }
}

=== FILE: sgxstep.dfy ===
/**
 * The driver itself: the open/release token and the ioctl entry point with
 * its four handlers, working step by step on a 256-byte kernel staging
 * buffer and on the state the driver changes. Each method is proved to do
 * what the functions of Handlers and PageWalk say.
 */
module SgxStep {
  import opened Wrappers
  import opened Bytes
  import opened Errno
  import opened IoctlAbi
  import opened Uaccess
  import opened Regions
  import opened PageWalk
  import opened Handlers
  import opened HandlerProperties

  /** The size of step_ioctl's on-stack staging buffer. */
  const STAGING_SIZE := 256

  /** Copy `b` into the front of `data`, leaving the rest as it was. */
  method Stage(data: array<byte>, b: seq<byte>)
    requires |b| <= data.Length
    modifies data
    ensures data[..|b|] == b
    ensures data[|b|..] == old(data[|b|..])
  {
    forall i | 0 <= i < |b| {
      data[i] := b[i];
    }
  }

  class Kernel {
    /** target_cpu: the CPU of the process holding the device open, or -1 when it is free. */
    var targetCpu: int
    /** The calling process's memory, as copy_from_user and copy_to_user see it. */
    var user: UserMem
    /** Enclave memory behind the areas' access routines. */
    var encl: RegionMem
    /** Control register CR4. */
    var cr4: bv64
    /** The calling process's memory areas. */
    const vmas: seq<Vma>
    /** How this kernel reads page-table entries. */
    const paging: Paging
    /** Physical memory as the page-table walk reads it. */
    const pt: PhysMem
    /** The physical address of the process's top-level page table. */
    const root: bv64

    /** Module load: the device starts out free. */
    constructor(vmas: seq<Vma>, paging: Paging, pt: PhysMem, root: bv64, user: UserMem, encl: RegionMem, cr4: bv64)
      ensures targetCpu == -1
      ensures this.vmas == vmas && this.paging == paging && this.pt == pt && this.root == root
      ensures this.user == user && this.encl == encl && this.cr4 == cr4
    {
      targetCpu := -1;
      this.vmas, this.paging, this.pt, this.root := vmas, paging, pt, root;
      this.user, this.encl, this.cr4 := user, encl, cr4;
    }

    /** The part of the state a command may change. */
    function State(): World
      reads this
    {
      World(user, encl, cr4)
    }

    /** The part a command only reads. */
    function Ctx(): Context {
      Context(vmas, paging, pt, root)
    }

    /**
     * step_open: the device can be held by one opener at a time. Opening a
     * held device fails with -EBUSY and changes nothing; opening a free one
     * records the caller's CPU.
     */
    method StepOpen(cpu: nat) returns (ret: int)
      modifies this`targetCpu
      ensures old(targetCpu) != -1 ==> ret == -EBUSY && targetCpu == old(targetCpu)
      ensures old(targetCpu) == -1 ==> ret == 0 && targetCpu == cpu
    {
      if targetCpu != -1 {
        return -EBUSY;
      }
      targetCpu := cpu;
      return 0;
    }

    /** step_release: frees the device unconditionally. */
    method StepRelease() returns (ret: int)
      modifies this`targetCpu
      ensures ret == 0 && targetCpu == -1
    {
      targetCpu := -1;
      return 0;
    }

    /**
     * sgx_step_ioctl_info on the staged structure: on success `base` and
     * `size` are filled in; on failure the structure is left alone.
     */
    method IoctlInfoStaged(data: array<byte>) returns (ret: int)
      requires data.Length == STAGING_SIZE
      modifies data
      ensures var r := IoctlInfo(vmas, DecodeInfo(old(data[..ENCLAVE_INFO_SIZE])));
        && ret == r.0
        && data[..ENCLAVE_INFO_SIZE] == EncodeInfo(r.1)
        && data[ENCLAVE_INFO_SIZE..] == old(data[ENCLAVE_INFO_SIZE..])
    {
      var info := DecodeInfo(data[..ENCLAVE_INFO_SIZE]);
      InfoBytesRoundTrip(data[..ENCLAVE_INFO_SIZE]);
      match EnclaveAt(vmas, Addr(info.tcs))
      case None =>
        return ASSERT_FAILED;
      case Some(e) =>
        if info.aep == 0 || info.tcs == 0 {
          return ASSERT_FAILED;
        }
        Stage(data, EncodeInfo(info.(base := e.base, size := e.size)));
        return 0;
    }

    /**
     * The walk of sgx_step_get_pt_mapping: start from a cleared record
     * holding `virt` and the root, record each level's entry and stop at the
     * first that is not present; behind a present PTE, compute the physical
     * address.
     */
    method Walk(virt: bv64) returns (m: AddressMapping)
      ensures m == WalkSpec(paging, pt, root, virt)
    {
      WalkRecord(paging, pt, root, virt);
      m := AddressMapping(virt, 0, root, 0, 0, 0, 0, 0);
      var pgd := EntryAt(pt, root, PgdIndex(virt));
      m := m.(pgd := pgd);
      if !paging.pgdPresent(pgd) {
        return;
      }
      var pud := EntryAt(pt, paging.pudTable(pgd), PudIndex(virt));
      m := m.(pud := pud);
      if !paging.pudPresent(pud) {
        return;
      }
      var pmd := EntryAt(pt, paging.pmdTable(pud), PmdIndex(virt));
      m := m.(pmd := pmd);
      if !paging.pmdPresent(pmd) {
        return;
      }
      var pte := EntryAt(pt, paging.pteTable(pmd), PteIndex(virt));
      m := m.(pte := pte);
      if !paging.ptePresent(pte) {
        return;
      }
      m := m.(phys := PhysAddr(PfnPhys(paging.pfn(pte)), virt));
    }

    /**
     * sgx_step_get_pt_mapping on the staged structure: clear SMEP and SMAP
     * in CR4 (for good), then replace the structure with the walk's record
     * for its `virt`. It always succeeds.
     */
    method GetPtMappingStaged(data: array<byte>) returns (ret: int)
      requires data.Length == STAGING_SIZE
      modifies data, this`cr4
      ensures ret == 0 && cr4 == ClearSmepSmap(old(cr4))
      ensures unchanged(this`user, this`encl)
      ensures DecodeMapping(data[..ADDRESS_MAPPING_SIZE]) == WalkSpec(paging, pt, root, DecodeMapping(old(data[..ADDRESS_MAPPING_SIZE])).virt)
      ensures data[ADDRESS_MAPPING_SIZE..] == old(data[ADDRESS_MAPPING_SIZE..])
    {
      cr4 := ClearSmepSmap(cr4);
      var virt := DecodeMapping(data[..ADDRESS_MAPPING_SIZE]).virt;
      var m := Walk(virt);
      var out := EncodeMapping(m);
      assert |out| == ADDRESS_MAPPING_SIZE;
      MappingRoundTrip(m);
      Stage(data, out);
      return 0;
    }

    /**
     * The variable-length buffer of sgx_step_ioctl_edbgrd: left as the stack
     * held it (`stack`) and, when writing, filled from user memory.
     */
    method EdbgrdStageIn(req: EdbgrdReq) returns (buf: array<byte>, ok: bool, ghost stack: Stack)
      requires 0 <= SignedLen(req.len)
      ensures fresh(buf)
      ensures ok == EdbgrdBuffer(user, req, stack).Some?
      ensures ok ==> buf[..] == EdbgrdBuffer(user, req, stack).value
    {
      var n: nat := SignedLen(req.len);
      buf := new byte[n];
      ghost var held := buf[..];
      stack := (i: nat) => if i < |held| then held[i] else 0;
      if req.write != 0 {
        var src := CopyFromUser(user, Addr(req.val), n);
        if src.None? {
          return buf, false, stack;
        }
        Stage(buf, src.value);
        assert buf[..] == src.value;
      } else {
        assert buf[..] == StackBytes(stack, n);
      }
      return buf, true, stack;
    }

    /**
     * sgx_step_ioctl_edbgrd on the staged request: an uninitialised buffer
     * of `len` bytes, whose first contents are `stack`, is filled from user
     * memory when writing, handed to edbgrdwr (whose result is ignored), and
     * copied out to user memory when reading.
     */
    method IoctlEdbgrdStaged(data: array<byte>) returns (ret: int, ghost stack: Stack)
      requires data.Length == STAGING_SIZE
      requires 0 <= SignedLen(DecodeEdbgrd(data[..EDBGRD_SIZE]).len)
      modifies this`user, this`encl
      ensures EdbgrdOutcome(ret, user, encl) == EdbgrdEffect(vmas, old(user), old(encl), DecodeEdbgrd(data[..EDBGRD_SIZE]), stack)
    {
      var req := DecodeEdbgrd(data[..EDBGRD_SIZE]);
      var buf, ok;
      buf, ok, stack := EdbgrdStageIn(req);
      if !ok {
        return -EFAULT, stack;
      }
      var t := Edbgrdwr(vmas, encl, Addr(req.adrs), buf[..], req.write);
      encl := t.mem;
      Stage(buf, t.buf);
      assert buf[..] == t.buf;
      if req.write == 0 {
        var dst := CopyToUser(user, Addr(req.val), buf[..]);
        if dst.None? {
          return -EFAULT, stack;
        }
        user := dst.value;
      }
      return 0, stack;
    }

    /**
     * sgx_step_ioctl_invpg: invalidates the TLB entry for `adrs`, which this
     * model does not represent; the staged request is left as it was.
     */
    method IoctlInvpgStaged(data: array<byte>) returns (ret: int)
      requires data.Length == STAGING_SIZE
      ensures ret == 0
    {
      return 0;
    }

    /** `ret`, the first `n` bytes of `data` and the state are the handler outcome `s`. */
    ghost predicate HandlerOutcome(s: Staged, n: nat, ret: int, data: array<byte>)
      requires n <= data.Length
      reads this, data
    {
      && ret == s.ret && data[..n] == s.bytes
      && user == s.world.user && encl == s.world.encl && cr4 == s.world.cr4
    }

    /**
     * The call through the handler pointer step_ioctl selected: the handler
     * runs on the staging buffer and leaves in its first SizeOf(c) bytes,
     * and in the state, what Handle says.
     */
    method RunHandler(c: Command, data: array<byte>) returns (ret: int, ghost stack: Stack)
      requires data.Length == STAGING_SIZE
      requires c == Edbgrd ==> 0 <= SignedLen(DecodeEdbgrd(data[..EDBGRD_SIZE]).len)
      modifies data, this`user, this`encl, this`cr4
      ensures HandlerOutcome(Handle(c, Ctx(), old(State()), old(data[..SizeOf(c)]), stack), SizeOf(c), ret, data)
    {
      stack := _ => 0;
      match c
      case VictimInfo =>
        ret := IoctlInfoStaged(data);
      case GetPtMapping =>
        ret := GetPtMappingStaged(data);
        MappingBytesRoundTrip(data[..ADDRESS_MAPPING_SIZE]);
      case Edbgrd =>
        ret, stack := IoctlEdbgrdStaged(data);
      case Invpg =>
        InvpgBytesRoundTrip(data[..INVPG_SIZE]);
        ret := IoctlInvpgStaged(data);
    }

    /**
     * step_ioctl: reject an unknown command with -EINVAL and dispatch a
     * known one. `stack` is what the kernel stack held where EDBGRD put its
     * buffer.
     */
    method StepIoctl(cmd: bv32, arg: nat) returns (ret: int, ghost stack: Stack)
      requires LenDefined(cmd, arg, user)
      modifies this`user, this`encl, this`cr4
      ensures Reply(ret, State()) == IoctlSpec(Ctx(), old(State()), cmd, arg, stack)
    {
      stack := _ => 0;
      var c := CommandOf(cmd);
      if c.None? {
        return -EINVAL, stack;
      }
      ret, stack := DispatchCommand(c.value, arg);
      IoctlKnown(Ctx(), old(State()), c.value, arg, stack);
    }

    /**
     * step_ioctl for a known command: check that the command's size fits
     * the staging buffer; stage in _IOC_SIZE(cmd) bytes from `arg` (-EFAULT
     * if that faults); run the handler on the staging buffer; and, when it
     * returned 0 and the command carries IOC_OUT, stage the bytes back out
     * (-EFAULT if that faults). A handler's own error is not returned.
     */
    method DispatchCommand(c: Command, arg: nat) returns (ret: int, ghost stack: Stack)
      requires StagedLenDefined(c, arg, user)
      modifies this`user, this`encl, this`cr4
      ensures Reply(ret, State()) == Dispatch(Ctx(), old(State()), c, arg, stack)
    {
      stack := _ => 0;
      var cmd := CmdNumber(c);
      var n := IocSize(cmd);
      if !(n < STAGING_SIZE) {
        return ASSERT_FAILED, stack;
      }
      var src := CopyFromUser(user, arg, n);
      if src.None? {
        return -EFAULT, stack;
      }
      var data := new byte[STAGING_SIZE];
      Stage(data, src.value);
      assert data[..n] == src.value;
      var hret;
      hret, stack := RunHandler(c, data);
      ret := CopyOut(cmd, arg, hret, data[..n]);
    }

    /**
     * The end of step_ioctl: when the handler returned 0 and the command
     * carries IOC_OUT, copy the staged bytes back to `arg`.
     */
    method CopyOut(cmd: bv32, arg: nat, hret: int, out: seq<byte>) returns (ret: int)
      modifies this`user
      ensures Reply(ret, State()) == CopyBack(cmd, arg, hret, out, old(State()))
    {
      if hret == 0 && cmd & IOC_OUT != 0 {
        var dst := CopyToUser(user, arg, out);
        if dst.None? {
          return -EFAULT;
        }
        user := dst.value;
      }
      return 0;
    }
  }

  /**
   * One process opens the free device; a second open is refused while it is
   * held; after the release the second opener gets it.
   */
  method OpenBusyReleaseOpen(k: Kernel, first: nat, second: nat) returns (r1: int, r2: int, r3: int)
    requires k.targetCpu == -1
    modifies k`targetCpu
    ensures r1 == 0 && r2 == -EBUSY && r3 == 0
    ensures k.targetCpu == second
  {
    r1 := k.StepOpen(first);
    r2 := k.StepOpen(second);
    var _ := k.StepRelease();
    r3 := k.StepOpen(second);
  }
}

=== FILE: uaccess.dfy ===
/**
 * The calling process's memory as copy_from_user and copy_to_user see it:
 * a byte per mapped address, and the set of addresses that may be written.
 * A copy touches every byte of its range or, if one byte is out of reach,
 * faults and touches none.
 */
module Uaccess {
  import opened Wrappers
  import opened Bytes

  /** A 64-bit user or enclave address as a position in memory. */
  function Addr(p: bv64): nat {
    p as nat
  }

  datatype UserMem = UserMem(bytes: map<nat, byte>, writable: set<nat>)

  /** Every byte of [addr, addr + n) is mapped. */
  predicate Readable(u: UserMem, addr: nat, n: nat) {
    forall i :: addr <= i < addr + n ==> i in u.bytes
  }

  /** Every byte of [addr, addr + n) is mapped and writable. */
  predicate Writable(u: UserMem, addr: nat, n: nat) {
    forall i :: addr <= i < addr + n ==> i in u.bytes && i in u.writable
  }

  /** The bytes of [addr, addr + n). */
  function Read(u: UserMem, addr: nat, n: nat): (r: seq<byte>)
    requires Readable(u, addr, n)
    ensures |r| == n
    ensures forall i :: 0 <= i < n ==> r[i] == u.bytes[addr + i]
  {
    seq(n, i requires 0 <= i < n && addr + i in u.bytes => u.bytes[addr + i])
  }

  /**
   * Memory after storing `b` at [addr, addr + |b|); only mapped bytes are
   * changed, so callers check Writable first.
   */
  function Write(u: UserMem, addr: nat, b: seq<byte>): (r: UserMem)
    ensures r.writable == u.writable && r.bytes.Keys == u.bytes.Keys
    ensures forall i {:trigger r.bytes[i]} :: i in u.bytes ==> r.bytes[i] == if addr <= i < addr + |b| then b[i - addr] else u.bytes[i]
  {
    u.(bytes := map i | i in u.bytes :: if addr <= i < addr + |b| then b[i - addr] else u.bytes[i])
  }

  /** copy_from_user: the n bytes at `addr`, or None when one of them is unmapped. */
  function CopyFromUser(u: UserMem, addr: nat, n: nat): (r: Option<seq<byte>>)
    ensures r.Some? <==> Readable(u, addr, n)
    ensures r.Some? ==> r.value == Read(u, addr, n)
  {
    if Readable(u, addr, n) then Some(Read(u, addr, n)) else None
  }

  /** copy_to_user: memory with `b` stored at `addr`, or None when a target byte is not writable. */
  function CopyToUser(u: UserMem, addr: nat, b: seq<byte>): (r: Option<UserMem>)
    ensures r.Some? <==> Writable(u, addr, |b|)
    ensures r.Some? ==> r.value == Write(u, addr, b)
  {
    if Writable(u, addr, |b|) then Some(Write(u, addr, b)) else None
  }

  /** What was written is read back. */
  lemma ReadAfterWrite(u: UserMem, addr: nat, b: seq<byte>)
    requires Writable(u, addr, |b|)
    ensures Readable(Write(u, addr, b), addr, |b|)
    ensures Read(Write(u, addr, b), addr, |b|) == b
  {
    var w := Write(u, addr, b);
    assert forall i :: 0 <= i < |b| ==> Read(w, addr, |b|)[i] == w.bytes[addr + i] == b[i];
  }

  /** The tail of a read range is the read of the tail. */
  lemma ReadSlice(u: UserMem, addr: nat, n: nat, i: nat)
    requires Readable(u, addr, n) && i <= n
    ensures Readable(u, addr + i, n - i)
    ensures Read(u, addr + i, n - i) == Read(u, addr, n)[i..]
  {
  }

  /** Writing back the bytes just read leaves memory as it was. */
  lemma WriteBackUnchanged(u: UserMem, addr: nat, n: nat)
    requires Writable(u, addr, n)
    ensures Write(u, addr, Read(u, addr, n)) == u
  {
    var w := Write(u, addr, Read(u, addr, n));
    assert w.bytes == u.bytes;
  }

  /** A write changes no byte outside its range and keeps every range's accessibility. */
  lemma WriteFrame(u: UserMem, addr: nat, b: seq<byte>, a: nat, n: nat)
    requires Writable(u, addr, |b|)
    ensures Readable(Write(u, addr, b), a, n) == Readable(u, a, n)
    ensures Writable(Write(u, addr, b), a, n) == Writable(u, a, n)
    ensures (a + n <= addr || addr + |b| <= a) && Readable(u, a, n) ==> Read(Write(u, addr, b), a, n) == Read(u, a, n)
  {
  }
}

=== FILE: wrappers.dfy ===
/** Optional values, used for lookups and for copies that may fault. */
module Wrappers {
  datatype Option<+T> = None | Some(value: T)
}
